=== FILE: README.md ===
# coanda-core: page versions, page tree, permission decisions

A Dafny model of the core of the coanda-core CMS. It covers five areas:

- **Version lifecycle.** A page holds numbered versions, each a draft, published or archived. The page repository creates a page with its first draft, fetches and saves drafts, discards them, publishes versions and opens new ones. The store is modelled as a map from page id to page, and each page holds a map from version number to version.
- **Page tree helpers.** Pages sit in a tree stored as materialised paths: "/1/5/" for a page whose ancestors are 1 and 5, "" at the top level. The helpers split a path, measure its depth, list children, resolve parents, count a sub-tree, and look up the current version.
- **Permission decisions** of the pages and URL modules:
  - the location-path check, the wildcard, `view`, create-implies-edit and the page-type rule;
  - the page types offered for a new sub-page;
  - the layout fallback chain;
  - resolving a location from a URL path;
  - the redirect status of promotional URLs.
- **History entries.** The module name taken from the subject (including `strpos`'s falsy-0 quirk), the fallback display text, the system user and the action data.
- **User groups.** The group presenter's permission listing.

The PHP primitives the code depends on are restated over `seq<char>` in `PhpStrings`: `explode`, `implode`, `trim`, `strpos`, the `(int)` cast, `ucfirst` and truthiness. Ordered associative arrays are modelled in `PhpArray`: assigning an existing key replaces it in place, and a new key is appended. Everything the code gets from elsewhere is a parameter:

- attribute storage;
- the URL repository's `canUse`;
- the page type's `generateName`;
- user, location and layout lookups;
- `json_decode`;
- the current user's permissions.

A call on null, which is a fatal error in PHP, is an error outcome (`NullReference`).

The main invariant is `PageRepository.Lifecycle`. It states four things:

- a page has at least one version;
- version numbers start at 1;
- every published version is the current one;
- if version 1 is a draft, the page points at version 1.

Create, save, discard and opening a new version preserve it. A successful publication preserves it except when version 1 is republished while another version is published and current (see Findings). "The current version is always published" would be false: `create` points the page at version 1 while version 1 is still a draft.

## Model

| member | source | states |
|---|---|---|
| PageRepository.Create | src/CoandaCMS/Coanda/Pages/Repositories/Eloquent/EloquentPageRepository.php:57-101 | The new page has a fresh id and points at version 1. Its only version is 1, a draft, created and edited by the user. Its attributes follow the page type's schema in order, with `order` 1..n and empty data. Other pages are untouched. |
| PageRepository.CreateLifecycle | src/CoandaCMS/Coanda/Pages/Repositories/Eloquent/EloquentPageRepository.php:57-101 | A created page satisfies the lifecycle invariant. |
| PageRepository.GetDraftVersion | src/CoandaCMS/Coanda/Pages/Repositories/Eloquent/EloquentPageRepository.php:109-126 | Returns a version only if it belongs to the page, has that number and is a draft. Otherwise the error is PageVersionNotFound when the page exists and PageNotFound when it does not. |
| PageRepository.CreatedDraftIsFetchable | src/CoandaCMS/Coanda/Pages/Repositories/Eloquent/EloquentPageRepository.php:57-126 | Fetching draft 1 of a freshly created page succeeds. |
| PageRepository.AttributeKeyInjective | src/CoandaCMS/Coanda/Pages/Repositories/Eloquent/EloquentPageRepository.php:146 | Distinct attribute ids give distinct `attribute_<id>` failure keys. |
| PageRepository.Failures | src/CoandaCMS/Coanda/Pages/Repositories/Eloquent/EloquentPageRepository.php:138-148 | The failure array has a key for exactly the attributes whose store call failed. |
| PageRepository.FailureMessage | src/CoandaCMS/Coanda/Pages/Repositories/Eloquent/EloquentPageRepository.php:138-148 | Each failure key carries the message of that attribute's failed store call. |
| PageRepository.SaveVersion | src/CoandaCMS/Coanda/Pages/Repositories/Eloquent/EloquentPageRepository.php:134-172 | Every attribute is attempted. Stored data replaces the attribute's data, and a rejected attribute keeps its old data. The slug changes to the requested one only when `canUse` accepts it; otherwise a `slug` failure is recorded with a message that depends on the reason. A validation error is raised iff some failure exists. |
| PageRepository.SaveDraftVersion | src/CoandaCMS/Coanda/Pages/Repositories/Eloquent/EloquentPageRepository.php:134-172 | Only the saved version changes, even when some attributes fail; the failures are those of `SaveVersion`. |
| PageRepository.NoShortCircuit | src/CoandaCMS/Coanda/Pages/Repositories/Eloquent/EloquentPageRepository.php:138-148 | An attribute after a failed one is still stored. |
| PageRepository.SaveReportsMessages | src/CoandaCMS/Coanda/Pages/Repositories/Eloquent/EloquentPageRepository.php:138-148 | When no other attribute shares its id, a rejected attribute is reported under `attribute_<id>` with the message of its failed store call. |
| PageRepository.SlugRefusalsReported | src/CoandaCMS/Coanda/Pages/Repositories/Eloquent/EloquentPageRepository.php:150-165 | A refused slug leaves the old slug in place and is reported under `slug`: an invalid slug as "The slug is not valid", a slug in use as "The slug is already in use". The two messages differ. |
| PageRepository.SaveDraftKeepsInvariants | src/CoandaCMS/Coanda/Pages/Repositories/Eloquent/EloquentPageRepository.php:134-172 | Saving a draft keeps the store valid and the lifecycle invariant. |
| PageRepository.DiscardDraftVersion | src/CoandaCMS/Coanda/Pages/Repositories/Eloquent/EloquentPageRepository.php:174-185 | The version is removed. The page is removed iff that was its last version, and nothing else changes. |
| PageRepository.CreateThenDiscard | src/CoandaCMS/Coanda/Pages/Repositories/Eloquent/EloquentPageRepository.php:57-185 | Discarding the first draft of a new page gives back the original set of pages. |
| PageRepository.DiscardKeepsInvariants | src/CoandaCMS/Coanda/Pages/Repositories/Eloquent/EloquentPageRepository.php:174-185 | Discarding a draft keeps the store valid and the lifecycle invariant. |
| PageRepository.PublishVersion | src/CoandaCMS/Coanda/Pages/Repositories/Eloquent/EloquentPageRepository.php:187-209 | For a number other than 1 the current version is archived first. With no current version this is a call on null before any write. The target is then marked published through the caller's copy, whose save writes only a changed status. So a version that was already published and current stays archived. The page type is looked up only after these writes. When the type is not registered the run stops with PageTypeNotFound: the status writes stay, and the page keeps its name and current version. Otherwise the page is renamed by its type from the caller's copy marked published, points at the version, and `base_slug + slug` is registered. No other page changes. It succeeds iff neither failure occurs. |
| PageRepository.PublishedIsCurrent | src/CoandaCMS/Coanda/Pages/Repositories/Eloquent/EloquentPageRepository.php:187-209 | After a successful publication the page points at the version and is not a draft. Its status is published, except for a version other than 1 that was already published and current, which ends archived. |
| PageRepository.RepublishingCurrentArchivesIt | src/CoandaCMS/Coanda/Pages/Repositories/Eloquent/EloquentPageRepository.php:191-198 | Republishing the published current version, other than version 1, succeeds with the page pointing at an archived version and no version published. |
| PageRepository.IntendedPublishedIsCurrent | src/CoandaCMS/Coanda/Pages/Repositories/Eloquent/EloquentPageRepository.php:191-205 | The corrected publication always leaves the version published and current. |
| PageRepository.PublishDraftKeepsLifecycle | src/CoandaCMS/Coanda/Pages/Repositories/Eloquent/EloquentPageRepository.php:187-209 | Publishing a draft keeps the store well formed, and a successful publication keeps the lifecycle invariant. |
| PageRepository.PublishKeepsLifecycle | src/CoandaCMS/Coanda/Pages/Repositories/Eloquent/EloquentPageRepository.php:187-209 | Publishing keeps the store well formed whatever the outcome. A successful publication keeps the lifecycle invariant in every case but one: republishing version 1 while another version is published and current. |
| PageRepository.RepublishingFirstLeavesTwoPublished | src/CoandaCMS/Coanda/Pages/Repositories/Eloquent/EloquentPageRepository.php:191-200 | Republishing version 1 while another version is published and current skips the archive step. It succeeds with both versions published, which breaks the invariant. |
| PageRepository.RepublishingFirstExample | src/CoandaCMS/Coanda/Pages/Repositories/Eloquent/EloquentPageRepository.php:187-209 | A concrete store meeting both invariants reaches that case: version 1 archived, version 2 published and current. |
| PageRepository.PublishVersionIntended | src/CoandaCMS/Coanda/Pages/Repositories/Eloquent/EloquentPageRepository.php:191-197 | The corrected publication archives the current version unless it is the version being published. Otherwise it behaves like `publishVersion`. |
| PageRepository.IntendedPublishKeepsLifecycle | src/CoandaCMS/Coanda/Pages/Repositories/Eloquent/EloquentPageRepository.php:187-209 | The corrected publication keeps the store well formed, and on success keeps the lifecycle invariant whatever the published version's status. |
| PageRepository.UnknownTypeLeavesStrayPublished | src/CoandaCMS/Coanda/Pages/Repositories/Eloquent/EloquentPageRepository.php:194-205 | When the page type is not registered, publishing a version that is not current leaves it published while the page still points at the old current version. This breaks the invariant. |
| PageRepository.PublishArchivesPrevious | src/CoandaCMS/Coanda/Pages/Repositories/Eloquent/EloquentPageRepository.php:191-206 | Publishing a version other than 1 archives the previously current version. |
| PageRepository.AtMostOnePublished | src/CoandaCMS/Coanda/Pages/Repositories/Eloquent/EloquentPageRepository.php:187-209 | Under the lifecycle invariant no two versions of a page are published. |
| PageRepository.MaxNumber | src/CoandaCMS/Coanda/Pages/Repositories/Eloquent/EloquentPageRepository.php:217-219 | The highest version number in use: it is in the set and no element exceeds it. |
| PageRepository.CreateNewVersion | src/CoandaCMS/Coanda/Pages/Repositories/Eloquent/EloquentPageRepository.php:211-257 | The new number is the highest existing number plus one. The new version is a draft by the user, with the current version's slug. Each schema attribute gets the resolved attribute type and the data of the current version's attribute with the same identifier, or `''`. Only that page changes. A missing page is a call on null, and a missing page type raises PageTypeNotFound. A missing current version reads its slug as empty. It becomes a call on null only when the schema has attributes to copy. In that case the bare row is already stored: a draft by the user with the new number, no slug and no attributes. |
| PageRepository.NewVersionNumberIsFresh | src/CoandaCMS/Coanda/Pages/Repositories/Eloquent/EloquentPageRepository.php:217-220 | The new number exceeds every existing number, so discarded numbers below the highest are never reused. |
| PageRepository.NewVersionKeepsLifecycle | src/CoandaCMS/Coanda/Pages/Repositories/Eloquent/EloquentPageRepository.php:211-257 | Opening a new version keeps the lifecycle invariant. |
| PageRepository.NewVersionCopiesContent | src/CoandaCMS/Coanda/Pages/Repositories/Eloquent/EloquentPageRepository.php:235-247 | When the current version follows the schema, the new draft starts with exactly the current content. |
| PageRepository.SecondVersionReplacesFirst | src/CoandaCMS/Coanda/Pages/Repositories/Eloquent/EloquentPageRepository.php:187-257 | With version 1 published, the next version is numbered 2. Publishing it archives 1 and makes 2 current. |
| PageModel.CurrentVersion | src/CoandaCMS/Coanda/Pages/Repositories/Eloquent/Models/Page.php:161-169 | The version whose number equals `current_version`, if there is one. |
| PageModel.StatusOf | src/CoandaCMS/Coanda/Pages/Repositories/Eloquent/Models/Page.php:175-178 | The page's status is its current version's status. |
| PageModel.IsDraft | src/CoandaCMS/Coanda/Pages/Repositories/Eloquent/Models/Page.php:216-219 | `is_draft` holds iff the current version's status is draft. |
| PageModel.PathArray | src/CoandaCMS/Coanda/Pages/Repositories/Eloquent/Models/Page.php:86-89 | The pieces of the path between '/' separators; joined with '/' they give the path back. |
| PageModel.Depth | src/CoandaCMS/Coanda/Pages/Repositories/Eloquent/Models/Page.php:91-94 | The depth is one more than the number of '/' in the path, so the empty path has depth 1. |
| PageModel.DepthOfMaterialized | src/CoandaCMS/Coanda/Pages/Repositories/Eloquent/Models/Page.php:86-94 | A top-level page has depth 1, and a page with k ancestors has depth k+2. |
| PageModel.PathArrayOfMaterialized | src/CoandaCMS/Coanda/Pages/Repositories/Eloquent/Models/Page.php:86-89 | A well-formed path splits into an empty piece, the ancestor ids and an empty piece. |
| PageModel.SubTreeCount | src/CoandaCMS/Coanda/Pages/Repositories/Eloquent/Models/Page.php:74-84 | The count is zero iff no row lies under the page's sub-tree prefix. A one-row table counts 1 iff that row lies under it. |
| PageModel.SubTreeCountAppend | src/CoandaCMS/Coanda/Pages/Repositories/Eloquent/Models/Page.php:80 | The count over a table is the sum of the counts over its parts. With the one-row case, this fixes the count as the number of rows under the prefix. |
| PageModel.NotInOwnSubtree | src/CoandaCMS/Coanda/Pages/Repositories/Eloquent/Models/Page.php:80 | A page never lies under its own sub-tree prefix, which is longer than its own path. |
| PageModel.SubTreeCountExcludesSelf | src/CoandaCMS/Coanda/Pages/Repositories/Eloquent/Models/Page.php:74-84 | Removing the page's own row from the table leaves its count unchanged, so the count stays below the table size. |
| PageModel.InSubtreeExact | src/CoandaCMS/Coanda/Pages/Repositories/Eloquent/Models/Page.php:78-80 | On well-formed paths the literal prefix test holds iff the page is an ancestor of the row. |
| PageModel.ChildPath | src/CoandaCMS/Coanda/Pages/Repositories/Eloquent/Models/Page.php:78-80 | The sub-tree prefix of a page is the path its children have. |
| PageModel.MaterializedPrefix | src/CoandaCMS/Coanda/Pages/Repositories/Eloquent/Models/Page.php:78-80 | For well-formed paths, string prefix agrees with prefix of the ancestor lists. |
| PageModel.SortByOrder | src/CoandaCMS/Coanda/Pages/Repositories/Eloquent/Models/Page.php:63-67 | The rows sorted by `order` ascending, with the same multiset of rows. |
| PageModel.Children | src/CoandaCMS/Coanda/Pages/Repositories/Eloquent/Models/Page.php:57-72 | The result is ordered by `order`. It holds exactly the rows with this parent, trashed rows only for a trashed parent, each as often as in the table. |
| PageModel.Parents | src/CoandaCMS/Coanda/Pages/Repositories/Eloquent/Models/Page.php:105-123 | Never more pages than path pieces. |
| PageModel.ParentsOfMaterialized | src/CoandaCMS/Coanda/Pages/Repositories/Eloquent/Models/Page.php:105-123 | For a well-formed path, when the empty segment resolves to nothing, the result is the pages that the ancestor ids resolve to, in path order, skipping the ids that resolve to nothing. When every id resolves, that is exactly the ancestors. |
| PagesProvider.AnyPathAllows | src/CoandaCMS/Coanda/Pages/PagesModuleProvider.php:373-392 | The loop passes iff some allowed path lets the location through. |
| PagesProvider.PathCheckPasses | src/CoandaCMS/Coanda/Pages/PagesModuleProvider.php:358-400 | The path check fails iff allowed paths are set, the location id is given and resolves, and no non-empty allowed path is a prefix of the location's sub-tree prefix (or, for view, has it as a prefix). |
| PagesProvider.PathCheckOnTree | src/CoandaCMS/Coanda/Pages/PagesModuleProvider.php:371-391 | On well-formed paths an allowed page's prefix admits that page and everything below it. For view it also admits the page's ancestors. |
| PagesProvider.CheckAccess | src/CoandaCMS/Coanda/Pages/PagesModuleProvider.php:355-438 | Granted iff the path check passes and any of these holds: '*' is held; the permission is view; or the permission is held (edit also via create) and the page type is allowed. A failed path check is denied even with '*'. Each denial carries one of the three messages. |
| PagesProvider.CreateGrantsEdit | src/CoandaCMS/Coanda/Pages/PagesModuleProvider.php:413-417 | Whoever may create may edit under the same parameters. |
| PagesProvider.Narrow | src/CoandaCMS/Coanda/Pages/PagesModuleProvider.php:205-213 | The entries of the array whose key is listed, with their values unchanged. |
| PagesProvider.AvailablePageTypes | src/CoandaCMS/Coanda/Pages/PagesModuleProvider.php:195-255 | Given a parent page, PageTypeNotFound iff the parent's type is not registered, looked up before anything else. Otherwise the offer is `TypesOffered` under that type's allowed sub-page types, or under none at the top level. The result is always a sub-array of the registry. |
| PagesProvider.TypesOffered | src/CoandaCMS/Coanda/Pages/PagesModuleProvider.php:199-254 | Always a sub-array of the registry. An `everything:*` user gets the types the parent allows. `pages:*` gets the full registry. `pages:create` gets those further narrowed to `page_types` when set. Anyone else gets nothing. |
| PagesProvider.OfferedTypesRespectRestrictions | src/CoandaCMS/Coanda/Pages/PagesModuleProvider.php:199-250 | Without `pages:*`, every offered type is allowed by the parent's type, when that lists any. Unless the user has `everything:*`, it is also allowed by the user's `page_types`, when set. |
| PagesProvider.LookupPageType | src/CoandaCMS/Coanda/Pages/PagesModuleProvider.php:279-302 | PageTypeNotFound iff nothing is registered under the identifier. Otherwise the type registered under it, the one the array lookup answers. |
| PagesProvider.GetLayout | src/CoandaCMS/Coanda/Pages/PagesModuleProvider.php:457-482 | The version's layout wins when it is named and exists, and then the page type is never consulted. Failing that, the page's type is looked up: PageTypeNotFound iff it is not registered. Otherwise its default layout wins when it is named and exists, and the module default is returned when it does not. |
| PagesProvider.TypeDefaultIsFallback | src/CoandaCMS/Coanda/Pages/PagesModuleProvider.php:459-467 | When the version's layout is named and exists, the result succeeds and is the same whatever the page's type and registry, even for an unregistered type. |
| PagesProvider.LastSegment | src/CoandaCMS/Coanda/Pages/PagesModuleProvider.php:814-818 | The text after the last '/' of the path with its outer slashes trimmed, or the whole trimmed path when it has no '/'. |
| PagesProvider.LocationByPath | src/CoandaCMS/Coanda/Pages/PagesModuleProvider.php:812-831 | Looks up the `(int)` value of that last piece. The result is present iff the lookup finds a location. |
| PagesProvider.LocationByOwnPath | src/CoandaCMS/Coanda/Pages/PagesModuleProvider.php:812-831 | Resolving the materialised path that ends in a page's id looks up that page. That path is the page's sub-tree prefix, the one its children carry. |
| UrlProvider.CheckAccess | src/CoandaCMS/Coanda/Urls/UrlModuleProvider.php:92-112 | Granted iff '*' is held, the permission is view, or it is held. A denial carries the module's message. |
| UrlProvider.MorePermissionsGrantMore | src/CoandaCMS/Coanda/Urls/UrlModuleProvider.php:92-112 | Holding more permission names never withdraws a grant. |
| UrlProvider.RedirectResponse | src/CoandaCMS/Coanda/Urls/UrlModuleProvider.php:42-58 | An unknown redirect is a 404. A known one redirects to its destination with 301 iff its type is `perm`, else 302. |
| History.UserOf | src/CoandaCMS/Coanda/History/Repositories/Eloquent/Models/History.php:30-62 | User 0 is the System User record. Any other id is the active user, or failing that the archived one. |
| History.SystemUserIgnoresLookups | src/CoandaCMS/Coanda/History/Repositories/Eloquent/Models/History.php:43-46 | For user 0 the lookups do not matter. |
| History.ActionDataOf | src/CoandaCMS/Coanda/History/Repositories/Eloquent/Models/History.php:75-80 | The decoded value iff decoding succeeds with a truthy value, otherwise the stored text. |
| History.FalsyDataStaysRaw | src/CoandaCMS/Coanda/History/Repositories/Eloquent/Models/History.php:75-80 | Data that decodes to an empty array or to false reads back as the stored text. |
| History.ModuleOf | src/CoandaCMS/Coanda/History/Repositories/Eloquent/Models/History.php:101-109 | The non-empty text before the first ':' when a ':' occurs after position 0. Otherwise the whole subject, which includes a subject starting with ':'. |
| History.ModuleOfQualified | src/CoandaCMS/Coanda/History/Repositories/Eloquent/Models/History.php:101-109 | "name:rest" has module "name" when the name is non-empty and has no ':'. |
| History.LeadingColonSubject | src/CoandaCMS/Coanda/History/Repositories/Eloquent/Models/History.php:103 | A subject starting with ':' is its own module. |
| History.DisplayText | src/CoandaCMS/Coanda/History/Repositories/Eloquent/Models/History.php:122-134 | The module's generator decides when it has one. Otherwise the text starts with "module: " and ends with "#id". When neither the module nor the action contains '#', `FallbackTextNamesSubject` pins the whole text. |
| History.FallbackTextNamesSubject | src/CoandaCMS/Coanda/History/Repositories/Eloquent/Models/History.php:133 | The fallback text splits at its one '#' into the prefix and the id, and the id reads back with `(int)`. |
| UserGroup.DisplayNames | src/CoandaCMS/Coanda/Users/Presenters/UserGroup.php:22-25 | A module's permissions with the first letter raised, same order and count. |
| UserGroup.Permissions | src/CoandaCMS/Coanda/Users/Presenters/UserGroup.php:7-29 | 'all' iff key 0 holds '*'. Otherwise there is one key per distinct ucfirst'd module name, and each key carries the list of the last module with that name. |
| UserGroup.ByModulesLast | src/CoandaCMS/Coanda/Users/Presenters/UserGroup.php:18-26 | A later module with the same display name replaces an earlier one's list. |
| UserGroup.SingleModuleListing | src/CoandaCMS/Coanda/Users/Presenters/UserGroup.php:18-26 | A single module lists its permissions in order, each ucfirst'd, under its ucfirst'd name. |
| PhpStrings.SplitJoin | src/CoandaCMS/Coanda/Pages/Repositories/Eloquent/Models/Page.php:88 | `explode` undoes `implode` when no piece holds the separator. |
| PhpStrings.JoinSplit | src/CoandaCMS/Coanda/Pages/Repositories/Eloquent/Models/Page.php:88 | `implode` undoes `explode`. |
| PhpStrings.IntCastNatToString | src/CoandaCMS/Coanda/Pages/PagesModuleProvider.php:818 | `(int)` of a rendered number gives the number back. |
| PhpStrings.Ucfirst | src/CoandaCMS/Coanda/Users/Presenters/UserGroup.php:20-24 | Only an ASCII lower-case first letter changes, to its upper-case form. |
| PhpArray.Put | src/CoandaCMS/Coanda/Users/Presenters/UserGroup.php:20 | Assigning a key stores the value, leaves other keys alone, keeps an existing key in place and appends a new one. |

## Findings

| source | as written | input that shows it | evidently intended | confidence | as-written member | corrected member |
|---|---|---|---|---|---|---|
| src/CoandaCMS/Coanda/Pages/Repositories/Eloquent/EloquentPageRepository.php:191 | The current version is archived unless the version being published has number 1. | A page with version 1 archived, version 2 published and current; publish version 1. The archive step is skipped, and versions 1 and 2 both end up published. | Archive the current version unless it is the version being published. Then at most one version is published whatever status the published version had. | not executed; holds when the version number compares as the integer 1 | PageRepository.RepublishingFirstLeavesTwoPublished | PageRepository.IntendedPublishKeepsLifecycle |
| src/CoandaCMS/Coanda/Pages/Repositories/Eloquent/EloquentPageRepository.php:194-198 | The current version is archived through the page's copy of it, then published through the caller's separate copy, whose save writes only changed columns. | A page whose version 2 is published and current; publish version 2. The caller's copy already reads `published`, so its save writes nothing. The row stays archived, the page points at it, and no version is published. | Republishing the current version leaves it published, for example by not archiving the version being published. | not executed; relies on Eloquent saving only changed attributes | PageRepository.RepublishingCurrentArchivesIt | PageRepository.IntendedPublishedIsCurrent |

## Left out

- Rendering, caching, routing and module boot of both providers are left out: templating, hashing and framework wiring have no contract to state.
- `addHit` in the redirect router is left out: it is a counter update in the URL repository.
- The implementation of the URL repository, the attribute types' `store`, `generateName`, `layoutByIdentifier`, the user repositories and `json_decode` is not part of this model. Each is a parameter.
- The trash, restore, location and slug operations that `PageRepositoryInterface.php` declares have no implementation here, so they are not modelled.
- Transactions and concurrent requests are not modelled: each operation is one step on an immutable store.
- Lazy memoisation in `Page.php` (`if (!$this->children)` and similar) is not modelled; every call recomputes.
- PHP loose comparison is modelled only where strings meet strings. `0 == '*'` and numeric-string comparisons in `in_array` and `==` are not modelled, and neither is `!== 1` on a version number read back as a string.
- PhpStrings.IntCast: does not model exponent notation or the 64-bit overflow of PHP's `(int)` cast.
- PageModel.SortByOrder: ties in `order` keep the table's order; the database's order for ties is unspecified.
- PageModel.SubTreeCount: `_` and `%` inside a path would be LIKE wildcards; paths are digits and '/', so they are read literally.
- PageModel.Parents: its own contract only bounds the length. `ParentsOfMaterialized` states the content for well-formed paths, assuming that looking up the empty segment finds nothing.
- PageRepository.PublishVersion: requires the version to belong to the page. The source receives a version object that always has a page.
- PageRepository.Create: the slug and the attribute data that `create` never sets are modelled as "" rather than null.
- UserGroup.Permissions: a non-array access list and nested values inside a module's list are not modelled; a bare string value lists nothing.
- History.UserOf: an archived-user lookup that itself throws is not modelled. The lookups are total functions returning an optional user.
- PagesProvider.GetLayout: the layout is a type parameter, and `layoutByIdentifier` answers only by presence.
- PagesProvider.LocationByPath: its own contract is weak. The round trip is stated by `LocationByOwnPath`.
- A `pending` status is left out. The comment on the status column in the pages migration mentions one, but no modelled code sets it. A discarded version is deleted, not marked.
- "The current version is the published one" is not an invariant of the code, because `create` points the page at a draft. The model proves the weaker lifecycle invariant instead.
- `publishVersion` archives the current version whatever its status, whenever the number is not 1. The model follows this.
- PageRepository.RequestedSlug: a missing `slug` entry in the submitted data is read as "" rather than PHP's null with a notice.
- UrlProvider.RedirectResponse: the destination is returned as stored, without the `url()` helper that makes it absolute.

=== FILE: access.dfy ===
/** The verdict of a module's permission check. */
module Access {

  /** `Granted` when the check returns; `Denied` when it raises PermissionDenied with that message. */
  datatype Access = Granted | Denied(message: string)
}

=== FILE: history.dfy ===
/**
 * A history entry: who performed an action, which module it belongs to, the data
 * recorded with it, and the text that describes it.
 */
module History {
  import opened Wrappers
  import opened PhpStrings

  /** A row of the history table; `subject` is the `for` column, such as "pages:12". */
  datatype HistoryEntry = HistoryEntry(userId: nat, subject: string, subjectId: nat, action: string, data: string)

  datatype User = User(firstName: string, lastName: string, email: string)

  /** The record shown for actions the system performed itself. */
  const SystemUser: User := User("System", "User", "hello@somewhere.com")

  /**
   * `user()`: user id 0 is the system; any other id is looked up among the active
   * users and, failing that, among the archived ones.
   */
  function UserOf(entry: HistoryEntry, find: nat -> Option<User>, findArchived: nat -> Option<User>): (r: Option<User>)
    ensures entry.userId == 0 ==> r == Some(SystemUser)
    ensures entry.userId != 0 && r.Some? ==> r == find(entry.userId) || r == findArchived(entry.userId)
    ensures entry.userId != 0 && find(entry.userId).Some? ==> r == find(entry.userId)
    ensures entry.userId != 0 && find(entry.userId).None? ==> r == findArchived(entry.userId)
  {
    var user := if find(entry.userId).Some? then find(entry.userId) else findArchived(entry.userId);
    if entry.userId == 0 then Some(SystemUser) else user
  }

  /** What the user repositories hold does not affect the system's entries. */
  lemma SystemUserIgnoresLookups(entry: HistoryEntry, find: nat -> Option<User>, findArchived: nat -> Option<User>,
                                 find': nat -> Option<User>, findArchived': nat -> Option<User>)
    requires entry.userId == 0
    ensures UserOf(entry, find, findArchived) == UserOf(entry, find', findArchived')
  {
  }

  // ---------------------------------------------------------------------------
  // actionData
  // ---------------------------------------------------------------------------

  /** A value `json_decode(..., true)` can produce; objects become ordered arrays. */
  datatype Json =
    | JNull
    | JBool(b: bool)
    | JNumber(n: int)
    | JString(s: string)
    | JArray(items: seq<Json>)
    | JObject(fields: seq<(string, Json)>)

  /** PHP truthiness of a decoded value. */
  predicate JsonTruthy(j: Json)
  {
    match j
    case JNull => false
    case JBool(b) => b
    case JNumber(n) => n != 0
    case JString(s) => Truthy(s)
    case JArray(items) => |items| > 0
    case JObject(fields) => |fields| > 0
  }

  datatype ActionData = Decoded(value: Json) | Raw(text: string)

  /**
   * `actionData`: the decoded data when decoding gives a truthy value, otherwise
   * the stored text itself. `decode` stands for `json_decode` and answers `None`
   * where that returns null for text that is not JSON.
   */
  function ActionDataOf(entry: HistoryEntry, decode: string -> Option<Json>): (r: ActionData)
    ensures r.Decoded? <==> decode(entry.data).Some? && JsonTruthy(decode(entry.data).value)
    ensures r.Decoded? ==> decode(entry.data) == Some(r.value)
    ensures r.Raw? ==> r.text == entry.data
  {
    match decode(entry.data)
    case Some(j) => if JsonTruthy(j) then Decoded(j) else Raw(entry.data)
    case None => Raw(entry.data)
  }

  /** Data that decodes to an empty array or to false reads back as the stored text. */
  lemma FalsyDataStaysRaw(entry: HistoryEntry, decode: string -> Option<Json>)
    requires decode(entry.data) == Some(JArray([])) || decode(entry.data) == Some(JBool(false))
    ensures ActionDataOf(entry, decode) == Raw(entry.data)
  {
  }

  // ---------------------------------------------------------------------------
  // module and display_text
  // ---------------------------------------------------------------------------

  /**
   * `module()`: the text before the first ':' of the subject. `strpos` reports a
   * colon in first position as 0, which is falsy, so such a subject is returned whole.
   */
  function ModuleOf(subject: string): (m: string)
    ensures ':' !in subject ==> m == subject
    ensures |subject| > 0 && subject[0] == ':' ==> m == subject
    ensures |subject| > 0 && subject[0] != ':' && ':' in subject
            ==> |m| > 0 && ':' !in m && m + ":" <= subject
  {
    match IndexOf(subject, ':')
    case Some(p) =>
      if p > 0 then
        var parts := Split(subject, ':');
        assert parts[0] == subject[..p];
        parts[0]
      else subject
    case None => subject
  }

  /** A subject written as module, colon, rest names that module. */
  lemma ModuleOfQualified(name: string, rest: string)
    requires |name| > 0 && ':' !in name
    ensures ModuleOf(name + ":" + rest) == name
  {
    IndexOfAfter(name, ':', rest);
    var s := name + ":" + rest;
    assert s[..|name|] == name;
  }

  /** The `strpos` quirk: a subject starting with ':' is its own module, colon and all. */
  lemma LeadingColonSubject(rest: string)
    ensures ModuleOf(":" + rest) == ":" + rest
  {
  }

  /** A module's history text generator, given the subject id, the action and the data. */
  type Generator = (nat, string, ActionData) -> string

  /**
   * `display_text`: the module's own generator when it has one, else "module: action
   * #id".
   */
  function DisplayText(entry: HistoryEntry, generatorOf: string -> Option<Generator>,
                       decode: string -> Option<Json>): (t: string)
    ensures generatorOf(ModuleOf(entry.subject)).Some? ==>
              t == generatorOf(ModuleOf(entry.subject)).value(entry.subjectId, entry.action, ActionDataOf(entry, decode))
    ensures generatorOf(ModuleOf(entry.subject)).None? ==>
              ModuleOf(entry.subject) + ": " <= t && |NatToString(entry.subjectId)| < |t|
              && t[|t| - |NatToString(entry.subjectId)| - 1..] == "#" + NatToString(entry.subjectId)
  {
    var owner := ModuleOf(entry.subject);
    match generatorOf(owner)
    case Some(g) => g(entry.subjectId, entry.action, ActionDataOf(entry, decode))
    case None => owner + ": " + entry.action + " #" + NatToString(entry.subjectId)
  }

  /**
   * The fallback text names the entry: when neither the module nor the action holds
   * a '#', the subject id reads back from the piece after the '#'.
   */
  lemma FallbackTextNamesSubject(entry: HistoryEntry, generatorOf: string -> Option<Generator>,
                                 decode: string -> Option<Json>)
    requires generatorOf(ModuleOf(entry.subject)).None?
    requires '#' !in ModuleOf(entry.subject) && '#' !in entry.action
    ensures Split(DisplayText(entry, generatorOf, decode), '#') == [ModuleOf(entry.subject) + ": " + entry.action + " ", NatToString(entry.subjectId)]
    ensures IntCast(Split(DisplayText(entry, generatorOf, decode), '#')[1]) == entry.subjectId
  {
    var head := ModuleOf(entry.subject) + ": " + entry.action + " ";
    var id := NatToString(entry.subjectId);
    assert '#' !in head;
    assert AllDigits(id);
    assert '#' !in id;
    assert DisplayText(entry, generatorOf, decode) == head + "#" + id;
    assert Join([head, id], '#') == head + "#" + id;
    SplitJoin([head, id], '#');
    IntCastNatToString(entry.subjectId);
  }
}

=== FILE: page_model.dfy ===
/**
 * The records of a page and its versions, and the helpers the page record offers:
 * the current-version lookup, the status shown for a page, and the materialised-path
 * tree helpers (path split, depth, sub-tree count, children, parents).
 */
module PageModel {
  import opened Wrappers
  import opened PhpStrings

  /** The status column of a page version. */
  datatype Status = Draft | Published | Archived

  /** One field of a version; `data` is the opaque blob owned by the attribute type. */
  datatype Attribute = Attribute(id: nat, identifier: string, attributeType: string, order: nat, data: string)

  /** One revision of a page. */
  datatype Version = Version(
    number: nat,
    status: Status,
    slug: string,
    createdBy: nat,
    editedBy: nat,
    attributes: seq<Attribute>)

  /**
   * A page row together with its versions, keyed by version number. `path` is the
   * materialised path of ancestor ids ("" at the top level, "/1/4/" below page 4).
   */
  datatype Page = Page(
    id: nat,
    pageType: string,
    name: string,
    path: string,
    parentPageId: nat,
    order: int,
    currentVersion: nat,
    isTrashed: bool,
    createdBy: nat,
    editedBy: nat,
    versions: map<nat, Version>)

  /** One entry of a page type's attribute schema. */
  datatype AttributeSchema = AttributeSchema(identifier: string, attributeType: string)

  /**
   * A registered page type: its key, its ordered attribute schema, the page types
   * allowed below it (empty: any) and its default layout identifier, if any.
   */
  datatype PageType = PageType(
    identifier: string,
    attributes: seq<AttributeSchema>,
    allowedSubPageTypes: seq<string>,
    defaultLayout: Option<string>)

  /** Versions are stored under their own number. */
  predicate WellKeyed(p: Page)
  {
    forall n :: n in p.versions ==> p.versions[n].number == n
  }

  // ---------------------------------------------------------------------------
  // Current version and status
  // ---------------------------------------------------------------------------

  /** The version whose number is the page's `current_version`, if there is one. */
  function CurrentVersion(p: Page): (r: Option<Version>)
    ensures r.Some? <==> p.currentVersion in p.versions
    ensures r.Some? ==> r.value in p.versions.Values
    ensures r.Some? && WellKeyed(p) ==> r.value.number == p.currentVersion
  {
    if p.currentVersion in p.versions then Some(p.versions[p.currentVersion]) else None
  }

  /** The status shown for a page; none when its current version is missing. */
  function StatusOf(p: Page): (r: Option<Status>)
    ensures r.Some? <==> CurrentVersion(p).Some?
    ensures r.Some? ==> r.value == CurrentVersion(p).value.status
  {
    match CurrentVersion(p)
    case Some(v) => Some(v.status)
    case None => None
  }

  /** `is_draft`: the current version's status is draft (false when it is missing). */
  function IsDraft(p: Page): (r: bool)
    ensures r <==> StatusOf(p) == Some(Draft)
  {
    match CurrentVersion(p)
    case Some(v) => v.status == Draft
    case None => false
  }

  // ---------------------------------------------------------------------------
  // Path split and depth
  // ---------------------------------------------------------------------------

  /** Number of occurrences of `c` in `s`. */
  function CountChar(s: string, c: char): nat
  {
    if |s| == 0 then 0 else (if s[0] == c then 1 else 0) + CountChar(s[1..], c)
  }

  lemma {:induction false} CountCharAppend(x: string, y: string, c: char)
    ensures CountChar(x + y, c) == CountChar(x, c) + CountChar(y, c)
    decreases |x|
  {
    if |x| > 0 {
      assert (x + y)[1..] == x[1..] + y;
      CountCharAppend(x[1..], y, c);
    } else {
      assert x + y == y;
    }
  }

  lemma CountCharAbsent(s: string, c: char)
    requires c !in s
    ensures CountChar(s, c) == 0
  {
    if |s| > 0 {
      CountCharAbsent(s[1..], c);
    }
  }

  /** `pathArray`: the path split on '/', rejoining to the path. */
  function PathArray(path: string): (r: seq<string>)
    ensures |r| >= 1 && Join(r, '/') == path
    ensures forall k :: 0 <= k < |r| ==> '/' !in r[k]
  {
    JoinSplit(path, '/');
    Split(path, '/')
  }

  /** `depth`: one more than the number of '/' in the path, so the empty path has depth 1. */
  function Depth(path: string): (d: nat)
    ensures d == CountChar(path, '/') + 1
  {
    SplitLength(path, '/');
    |PathArray(path)|
  }

  lemma {:induction false} SplitLength(s: string, c: char)
    ensures |Split(s, c)| == CountChar(s, c) + 1
    decreases |s|
  {
    match IndexOf(s, c)
    case None =>
      CountCharAbsent(s, c);
    case Some(i) =>
      SplitLength(s[i + 1..], c);
      assert s == s[..i] + ([c] + s[i + 1..]);
      CountCharAppend(s[..i], [c] + s[i + 1..], c);
      CountCharAppend([c], s[i + 1..], c);
      CountCharAbsent(s[..i], c);
  }

  // ---------------------------------------------------------------------------
  // Materialised paths
  // ---------------------------------------------------------------------------

  /**
   * The prefix shared by everything below a page: its path (or "/" when that is
   * empty), its id and a '/'. The sub-tree count and the location path checks both
   * test against this string.
   */
  function SubtreePrefix(path: string, id: nat): string
  {
    (if path == "" then "/" else path) + NatToString(id) + "/"
  }

  /** Each piece followed by a '/'. */
  function Terminated(parts: seq<string>): string
  {
    if |parts| == 0 then "" else parts[0] + "/" + Terminated(parts[1..])
  }

  function Digits(ids: seq<nat>): (ds: seq<string>)
    ensures |ds| == |ids|
    ensures forall i :: 0 <= i < |ids| ==> ds[i] == NatToString(ids[i])
  {
    if |ids| == 0 then [] else [NatToString(ids[0])] + Digits(ids[1..])
  }

  /**
   * The path a page has when its ancestors (top-most first) are `ids`: empty at the
   * top level, otherwise "/" followed by each ancestor id and a '/'.
   */
  function MaterializedPath(ids: seq<nat>): string
  {
    if |ids| == 0 then "" else "/" + Terminated(Digits(ids))
  }

  lemma {:induction false} TerminatedSnoc(parts: seq<string>, x: string)
    ensures Terminated(parts + [x]) == Terminated(parts) + x + "/"
    decreases |parts|
  {
    if |parts| == 0 {
      assert parts + [x] == [x];
    } else {
      assert (parts + [x])[1..] == parts[1..] + [x];
      TerminatedSnoc(parts[1..], x);
    }
  }

  lemma DigitsSnoc(ids: seq<nat>, i: nat)
    ensures Digits(ids + [i]) == Digits(ids) + [NatToString(i)]
  {
  }

  /** A child's path is its parent's sub-tree prefix: the tree's path invariant. */
  lemma ChildPath(ids: seq<nat>, i: nat)
    ensures MaterializedPath(ids + [i]) == SubtreePrefix(MaterializedPath(ids), i)
  {
    var d := NatToString(i);
    DigitsSnoc(ids, i);
    TerminatedSnoc(Digits(ids), d);
    var t := Terminated(Digits(ids) + [d]);
    assert t == Terminated(Digits(ids)) + d + "/";
    assert MaterializedPath(ids + [i]) == "/" + t;
    if |ids| == 0 {
      assert Digits(ids) == [];
      assert Terminated(Digits(ids)) == "";
      assert MaterializedPath(ids) == "";
    } else {
      assert MaterializedPath(ids) == "/" + Terminated(Digits(ids));
    }
  }

  lemma {:induction false} TerminatedPrefix(a: seq<string>, b: seq<string>)
    requires forall k :: 0 <= k < |a| ==> '/' !in a[k]
    requires forall k :: 0 <= k < |b| ==> '/' !in b[k]
    ensures Terminated(a) <= Terminated(b) <==> a <= b
    decreases |a|
  {
    if |a| == 0 {
    } else if |b| == 0 {
      assert Terminated(a)[|a[0]|] == '/';
    } else {
      var x, y := a[0], b[0];
      var ta, tb := Terminated(a), Terminated(b);
      var ra, rb := Terminated(a[1..]), Terminated(b[1..]);
      assert ta == x + "/" + ra;
      assert tb == y + "/" + rb;
      TerminatedPrefix(a[1..], b[1..]);
      if ta <= tb {
        SameHead(x, y, ra, rb);
        assert ra == ta[|x| + 1..];
        assert rb == tb[|y| + 1..];
        assert ra <= rb;
        assert a == [x] + a[1..] && b == [y] + b[1..];
      }
    }
  }

  /** Two '/'-terminated heads that are prefix-related are the same piece. */
  lemma SameHead(x: string, y: string, ra: string, rb: string)
    requires '/' !in x && '/' !in y
    requires x + "/" + ra <= y + "/" + rb
    ensures x == y
  {
    var ta, tb := x + "/" + ra, y + "/" + rb;
    var m := if |x| < |y| then |x| else |y|;
    assert ta[m] == tb[m];
    assert |x| == |y|;
    assert x == ta[..|x|] == tb[..|y|] == y;
  }

  lemma {:induction false} DigitsPrefix(a: seq<nat>, b: seq<nat>)
    ensures Digits(a) <= Digits(b) <==> a <= b
    decreases |a|
  {
    if |a| > 0 && |b| > 0 {
      DigitsPrefix(a[1..], b[1..]);
      assert Digits(a) == [NatToString(a[0])] + Digits(a[1..]);
      assert Digits(b) == [NatToString(b[0])] + Digits(b[1..]);
      if NatToString(a[0]) == NatToString(b[0]) {
        NatToStringInjective(a[0], b[0]);
      }
      if Digits(a) <= Digits(b) {
        assert Digits(a)[0] == Digits(b)[0];
        assert Digits(a)[1..] <= Digits(b)[1..];
        assert a == [a[0]] + a[1..] && b == [b[0]] + b[1..];
      }
      if a <= b {
        assert a[0] == b[0];
        assert a[1..] <= b[1..];
      }
    }
  }

  lemma DigitsHaveNoSlash(ids: seq<nat>)
    ensures forall k :: 0 <= k < |ids| ==> '/' !in Digits(ids)[k]
  {
    forall k | 0 <= k < |ids|
      ensures '/' !in Digits(ids)[k]
    {
      var s := NatToString(ids[k]);
      assert AllDigits(s);
    }
  }

  // ---------------------------------------------------------------------------
  // Sub-tree count
  // ---------------------------------------------------------------------------

  /** The literal prefix test the sub-tree query performs (`path LIKE prefix%`). */
  predicate InSubtree(q: Page, p: Page)
  {
    SubtreePrefix(p.path, p.id) <= q.path
  }

  /** `subTreeCount`: how many rows of the pages table lie under `p`. */
  function SubTreeCount(table: seq<Page>, p: Page): (n: nat)
    ensures n <= |table|
    ensures n == 0 <==> forall i :: 0 <= i < |table| ==> !InSubtree(table[i], p)
    ensures |table| == 1 ==> (n == 1 <==> InSubtree(table[0], p))
  {
    if |table| == 0 then 0
    else
      var rest := SubTreeCount(table[1..], p);
      assert forall i :: 1 <= i < |table| ==> table[i] == table[1..][i - 1];
      (if InSubtree(table[0], p) then 1 else 0) + rest
  }

  /** The count of a table is the sum of the counts of its parts. */
  lemma {:induction false} SubTreeCountAppend(a: seq<Page>, b: seq<Page>, p: Page)
    ensures SubTreeCount(a + b, p) == SubTreeCount(a, p) + SubTreeCount(b, p)
    decreases |a|
  {
    if |a| == 0 {
      assert a + b == b;
    } else {
      assert (a + b)[1..] == a[1..] + b;
      SubTreeCountAppend(a[1..], b, p);
    }
  }

  /** A page never lies in its own sub-tree: its path is shorter than its prefix. */
  lemma NotInOwnSubtree(p: Page)
    ensures !InSubtree(p, p)
  {
    assert |SubtreePrefix(p.path, p.id)| > |p.path|;
  }

  /**
   * The page's own row never adds to its count: removing it leaves the count as it
   * was, and the count stays below the table's size.
   */
  lemma SubTreeCountExcludesSelf(a: seq<Page>, p: Page, b: seq<Page>)
    ensures SubTreeCount(a + [p] + b, p) == SubTreeCount(a + b, p)
    ensures SubTreeCount(a + [p] + b, p) < |a + [p] + b|
  {
    NotInOwnSubtree(p);
    SubTreeCountAppend(a + [p], b, p);
    SubTreeCountAppend(a, [p], p);
    SubTreeCountAppend(a, b, p);
  }

  /**
   * On well-formed paths the literal prefix test is exact: `q` is counted under `p`
   * exactly when `p`'s ancestors followed by `p` itself begin `q`'s ancestor list.
   * In particular page 1 does not capture the descendants of page 12.
   */
  lemma InSubtreeExact(p: Page, a: seq<nat>, q: Page, b: seq<nat>)
    requires p.path == MaterializedPath(a) && q.path == MaterializedPath(b)
    ensures InSubtree(q, p) <==> a + [p.id] <= b
  {
    ChildPath(a, p.id);
    MaterializedPrefix(a + [p.id], b);
  }

  /**
   * For well-formed paths the literal string prefix test agrees with the prefix
   * order on ancestor lists.
   */
  lemma MaterializedPrefix(xs: seq<nat>, ys: seq<nat>)
    requires |xs| > 0
    ensures MaterializedPath(xs) <= MaterializedPath(ys) <==> xs <= ys
  {
    if |ys| == 0 {
      assert |MaterializedPath(xs)| > 0 && MaterializedPath(ys) == "";
    } else {
      DigitsHaveNoSlash(xs);
      DigitsHaveNoSlash(ys);
      TerminatedPrefix(Digits(xs), Digits(ys));
      DigitsPrefix(xs, ys);
      SlashPrefix(Terminated(Digits(xs)), Terminated(Digits(ys)));
    }
  }

  lemma SlashPrefix(x: string, y: string)
    ensures "/" + x <= "/" + y <==> x <= y
  {
    if "/" + x <= "/" + y {
      assert x == ("/" + x)[1..];
      assert y[..|x|] == ("/" + y)[1..|x| + 1];
    }
  }

  // ---------------------------------------------------------------------------
  // Children
  // ---------------------------------------------------------------------------

  predicate SortedByOrder(s: seq<Page>)
  {
    forall i, j :: 0 <= i < j < |s| ==> s[i].order <= s[j].order
  }

  function InsertByOrder(p: Page, s: seq<Page>): (r: seq<Page>)
    requires SortedByOrder(s)
    ensures SortedByOrder(r)
    ensures multiset(r) == multiset(s) + multiset{p}
  {
    if |s| == 0 || p.order <= s[0].order then [p] + s
    else
      var rest := InsertByOrder(p, s[1..]);
      assert s == [s[0]] + s[1..];
      PermutationKeepsBound(s[1..], p, rest, s[0].order);
      ConsSorted(s[0], rest);
      assert multiset([s[0]] + rest) == multiset{s[0]} + multiset(rest);
      [s[0]] + rest
  }

  lemma ConsSorted(x: Page, s: seq<Page>)
    requires SortedByOrder(s) && forall i :: 0 <= i < |s| ==> x.order <= s[i].order
    ensures SortedByOrder([x] + s)
  {
    var r := [x] + s;
    forall i, j | 0 <= i < j < |r|
      ensures r[i].order <= r[j].order
    {
      assert r[j] == s[j - 1];
      if i > 0 {
        assert r[i] == s[i - 1];
      }
    }
  }

  /** Every element of a permutation of `s` plus `p` is bounded below by what bounds them. */
  lemma PermutationKeepsBound(s: seq<Page>, p: Page, r: seq<Page>, o: int)
    requires multiset(r) == multiset(s) + multiset{p}
    requires o <= p.order && forall i :: 0 <= i < |s| ==> o <= s[i].order
    ensures forall i :: 0 <= i < |r| ==> o <= r[i].order
  {
    forall i | 0 <= i < |r|
      ensures o <= r[i].order
    {
      assert r[i] in multiset(r);
      if r[i] != p {
        assert r[i] in multiset(s);
        var j :| 0 <= j < |s| && s[j] == r[i];
      }
    }
  }

  /** `orderBy('order', 'asc')`, keeping table order between equal `order` values. */
  function SortByOrder(s: seq<Page>): (r: seq<Page>)
    ensures SortedByOrder(r)
    ensures multiset(r) == multiset(s)
  {
    if |s| == 0 then []
    else
      assert s == [s[0]] + s[1..];
      InsertByOrder(s[0], SortByOrder(s[1..]))
  }

  /** The rows whose parent is `parentId`, leaving trashed rows out unless asked to keep them. */
  function ChildRows(table: seq<Page>, parentId: nat, includeTrashed: bool): (r: seq<Page>)
    ensures |r| <= |table|
    ensures forall q :: q in r <==> q in table && q.parentPageId == parentId && (includeTrashed || !q.isTrashed)
    ensures forall q ::
              multiset(r)[q] == if q.parentPageId == parentId && (includeTrashed || !q.isTrashed) then multiset(table)[q] else 0
  {
    if |table| == 0 then []
    else
      var rest := ChildRows(table[1..], parentId, includeTrashed);
      var q := table[0];
      assert table == [q] + table[1..];
      assert multiset(table) == multiset{q} + multiset(table[1..]);
      if q.parentPageId == parentId && (includeTrashed || !q.isTrashed) then
        assert multiset([q] + rest) == multiset{q} + multiset(rest);
        [q] + rest
      else rest
  }

  /**
   * `children`: a non-trashed page lists only its non-trashed children, a trashed page
   * lists all of them; either way ordered by `order` ascending.
   */
  function Children(table: seq<Page>, p: Page): (r: seq<Page>)
    ensures SortedByOrder(r)
    ensures forall q :: q in r <==> q in table && q.parentPageId == p.id && (p.isTrashed || !q.isTrashed)
    ensures forall q ::
              multiset(r)[q] == if q.parentPageId == p.id && (p.isTrashed || !q.isTrashed) then multiset(table)[q] else 0
  {
    var rows := ChildRows(table, p.id, p.isTrashed);
    var r := SortByOrder(rows);
    assert forall q :: q in r <==> q in multiset(rows);
    r
  }

  // ---------------------------------------------------------------------------
  // Parents
  // ---------------------------------------------------------------------------

  /** The segments that `find` resolves, in segment order; the others are skipped. */
  function ResolveAll(segments: seq<string>, find: string -> Option<Page>): (r: seq<Page>)
    ensures |r| <= |segments|
    ensures forall k :: 0 <= k < |r| ==> exists i :: 0 <= i < |segments| && find(segments[i]) == Some(r[k])
  {
    if |segments| == 0 then []
    else
      var rest := ResolveAll(segments[1..], find);
      assert forall k :: 0 <= k < |rest| ==> exists i :: 0 <= i < |segments| && find(segments[i]) == Some(rest[k]) by {
        forall k | 0 <= k < |rest|
          ensures exists i :: 0 <= i < |segments| && find(segments[i]) == Some(rest[k])
        {
          var i :| 0 <= i < |segments[1..]| && find(segments[1..][i]) == Some(rest[k]);
          assert find(segments[i + 1]) == Some(rest[k]);
        }
      }
      match find(segments[0])
      case Some(page) => [page] + rest
      case None => rest
  }

  /** `parents`: the pages named by the path's segments, in path order. */
  function Parents(path: string, find: string -> Option<Page>): (r: seq<Page>)
    ensures |r| <= Depth(path)
    ensures forall k :: 0 <= k < |r| ==> exists i :: 0 <= i < |PathArray(path)| && find(PathArray(path)[i]) == Some(r[k])
  {
    ResolveAll(PathArray(path), find)
  }

  lemma {:induction false} ResolveAllAppend(xs: seq<string>, ys: seq<string>, find: string -> Option<Page>)
    ensures ResolveAll(xs + ys, find) == ResolveAll(xs, find) + ResolveAll(ys, find)
    decreases |xs|
  {
    if |xs| == 0 {
      assert xs + ys == ys;
    } else {
      assert (xs + ys)[1..] == xs[1..] + ys;
      ResolveAllAppend(xs[1..], ys, find);
    }
  }

  /**
   * The pages the ids resolve to through their decimal rendering, in order, skipping
   * the ids that resolve to nothing.
   */
  function ResolvedIds(ids: seq<nat>, find: string -> Option<Page>): (r: seq<Page>)
    ensures |r| <= |ids|
    ensures (forall i :: 0 <= i < |ids| ==> find(NatToString(ids[i])).Some?) ==>
              r == seq(|ids|, i requires 0 <= i < |ids| => find(NatToString(ids[i])).value)
    ensures (forall i :: 0 <= i < |ids| ==> find(NatToString(ids[i])).None?) ==> r == []
  {
    if |ids| == 0 then []
    else
      var rest := ResolvedIds(ids[1..], find);
      match find(NatToString(ids[0]))
      case Some(q) => [q] + rest
      case None => rest
  }

  lemma {:induction false} ResolveAllDigits(ids: seq<nat>, find: string -> Option<Page>)
    ensures ResolveAll(Digits(ids), find) == ResolvedIds(ids, find)
    decreases |ids|
  {
    if |ids| > 0 {
      ResolveAllDigits(ids[1..], find);
      assert Digits(ids)[1..] == Digits(ids[1..]);
    }
  }


  lemma {:induction false} TerminatedIsJoin(parts: seq<string>)
    ensures Terminated(parts) == Join(parts + [""], '/')
    decreases |parts|
  {
    if |parts| > 0 {
      TerminatedIsJoin(parts[1..]);
      assert (parts + [""])[1..] == parts[1..] + [""];
    }
  }

  /** A well-formed path splits into an empty piece, the ancestor ids, and an empty piece. */
  lemma PathArrayOfMaterialized(ids: seq<nat>)
    requires |ids| > 0
    ensures PathArray(MaterializedPath(ids)) == [""] + Digits(ids) + [""]
  {
    var ds := Digits(ids);
    TerminatedIsJoin(ds);
    var parts := [""] + ds + [""];
    JoinLeadingEmpty(ds + [""], '/');
    assert parts == [""] + (ds + [""]);
    assert Join(parts, '/') == MaterializedPath(ids);
    DigitsHaveNoSlash(ids);
    FramedHasNoSlash(ds);
    SplitJoin(parts, '/');
  }

  /** An empty first piece contributes only its separator. */
  lemma JoinLeadingEmpty(rest: seq<string>, c: char)
    requires |rest| >= 1
    ensures Join([""] + rest, c) == [c] + Join(rest, c)
  {
    assert ([""] + rest)[1..] == rest;
  }

  /** Framing slash-free pieces by two empty pieces keeps them slash-free. */
  lemma FramedHasNoSlash(ds: seq<string>)
    requires forall k :: 0 <= k < |ds| ==> '/' !in ds[k]
    ensures forall k :: 0 <= k < |[""] + ds + [""]| ==> '/' !in ([""] + ds + [""])[k]
  {
    var parts := [""] + ds + [""];
    forall k | 0 <= k < |parts|
      ensures '/' !in parts[k]
    {
      if 0 < k < |parts| - 1 {
        assert parts[k] == ds[k - 1];
      }
    }
  }

  /** A page `k` levels below the top has depth `k + 2`; a top-level page has depth 1. */
  lemma DepthOfMaterialized(ids: seq<nat>)
    ensures Depth(MaterializedPath(ids)) == if |ids| == 0 then 1 else |ids| + 2
  {
    if |ids| > 0 {
      PathArrayOfMaterialized(ids);
    }
  }

  /** On a well-formed path, `parents` resolves exactly the ancestor ids, given that the empty segment resolves to nothing. */
  lemma ParentsResolveIds(ids: seq<nat>, find: string -> Option<Page>)
    requires find("") == None
    ensures Parents(MaterializedPath(ids), find) == ResolvedIds(ids, find)
  {
    if |ids| > 0 {
      var ds := Digits(ids);
      PathArrayOfMaterialized(ids);
      assert [""] + ds + [""] == [""] + (ds + [""]);
      ResolveAllAppend([""], ds + [""], find);
      ResolveAllAppend(ds, [""], find);
      ResolveAllDigits(ids, find);
    } else {
      assert Split("", '/') == [""];
    }
  }

  /**
   * On a well-formed path, where the empty segment resolves to nothing, `parents` lists
   * the pages the ancestor ids resolve to, top-most first; when all of them resolve,
   * that is exactly the ancestors.
   */
  lemma ParentsOfMaterialized(ids: seq<nat>, find: string -> Option<Page>)
    requires find("") == None
    ensures Parents(MaterializedPath(ids), find) == ResolvedIds(ids, find)
    ensures (forall i :: 0 <= i < |ids| ==> find(NatToString(ids[i])).Some?) ==>
              Parents(MaterializedPath(ids), find) == seq(|ids|, i requires 0 <= i < |ids| => find(NatToString(ids[i])).value)
  {
    ParentsResolveIds(ids, find);
  }
}

=== FILE: page_repository.dfy ===
/**
 * The page version lifecycle of the Eloquent page repository over an in-memory
 * store: create a page with its first draft, fetch a draft, save a draft, discard a
 * version, publish a version and start a new version. The attribute types, the URL
 * registry and the page type's name generator are parameters.
 */
module PageRepository {
  import opened Wrappers
  import opened PhpStrings
  import opened PhpArray
  import opened PageModel

  /** The pages table: page id to page (with its versions), and the next auto-increment ids. */
  datatype Store = Store(pages: map<nat, Page>, nextPageId: nat, nextAttributeId: nat)

  /** The errors the repository raises; `NullReference` stands for a PHP call on null. */
  datatype RepoError = PageNotFound | PageVersionNotFound | PageTypeNotFound | NullReference(what: string)

  predicate AttributeIdsBelow(attrs: seq<Attribute>, bound: nat)
  {
    forall i :: 0 <= i < |attrs| ==> attrs[i].id < bound
  }

  /**
   * `t` differs from `s` at most in page `pageId`: the same page ids, the same page
   * counter, and every other page as it was.
   */
  predicate SamePagesElsewhere(s: Store, t: Store, pageId: nat)
  {
    && t.nextPageId == s.nextPageId
    && t.pages.Keys == s.pages.Keys
    && forall id :: id in s.pages && id != pageId ==> t.pages[id] == s.pages[id]
  }

  /** The shape the auto-increment columns guarantee. */
  predicate Valid(s: Store)
  {
    && 0 < s.nextPageId
    && forall id :: id in s.pages ==>
         && id < s.nextPageId
         && s.pages[id].id == id
         && WellKeyed(s.pages[id])
         && forall n :: n in s.pages[id].versions ==> AttributeIdsBelow(s.pages[id].versions[n].attributes, s.nextAttributeId)
  }

  /**
   * The lifecycle invariant the operations keep: a page has at least one version,
   * numbered from 1, a published version is always the current one, and while
   * version 1 is still a draft the page points at it.
   */
  predicate Lifecycle(p: Page)
  {
    && |p.versions| > 0
    && 0 !in p.versions
    && (forall n :: n in p.versions && p.versions[n].status == Published ==> n == p.currentVersion)
    && (1 in p.versions && p.versions[1].status == Draft ==> p.currentVersion == 1)
  }

  predicate AllLifecycle(s: Store)
  {
    forall id :: id in s.pages ==> Lifecycle(s.pages[id])
  }

  /** Under the lifecycle invariant a page has at most one published version. */
  lemma AtMostOnePublished(p: Page, m: nat, n: nat)
    requires Lifecycle(p)
    requires m in p.versions && p.versions[m].status == Published
    requires n in p.versions && p.versions[n].status == Published
    ensures m == n
  {
  }

  // ---------------------------------------------------------------------------
  // Attributes seeded from the page type's schema
  // ---------------------------------------------------------------------------

  /** `getAttributeByIdentifier(...)->attribute_data`, or '' when there is no such attribute. */
  function DataByIdentifier(attrs: seq<Attribute>, identifier: string): (d: string)
    ensures (forall i :: 0 <= i < |attrs| ==> attrs[i].identifier != identifier) ==> d == ""
    ensures forall i :: (0 <= i < |attrs| && attrs[i].identifier == identifier
                         && forall j :: 0 <= j < i ==> attrs[j].identifier != identifier) ==> d == attrs[i].data
  {
    if |attrs| == 0 then ""
    else if attrs[0].identifier == identifier then attrs[0].data
    else
      var d := DataByIdentifier(attrs[1..], identifier);
      assert forall i :: (0 <= i < |attrs| && attrs[i].identifier == identifier
                          && forall j :: 0 <= j < i ==> attrs[j].identifier != identifier) ==> d == attrs[i].data by {
        forall i | 0 <= i < |attrs| && attrs[i].identifier == identifier
                   && forall j :: 0 <= j < i ==> attrs[j].identifier != identifier
          ensures d == attrs[i].data
        {
          var tail := attrs[1..];
          assert tail[i - 1] == attrs[i];
          assert forall j :: 0 <= j < i - 1 ==> tail[j] == attrs[j + 1];
        }
      }
      assert forall i :: 1 <= i < |attrs| ==> attrs[i] == attrs[1..][i - 1];
      d
  }

  /**
   * One attribute per schema entry, in schema order: ids from `firstId`, `order`
   * 1..n, the resolved attribute type, and the data of `source`'s attribute with the
   * same identifier ('' when there is none).
   */
  function SeedAttributes(schema: seq<AttributeSchema>, firstId: nat, resolveType: string -> string, source: seq<Attribute>): (r: seq<Attribute>)
    ensures |r| == |schema|
    ensures AttributeIdsBelow(r, firstId + |schema|)
  {
    seq(|schema|, i requires 0 <= i < |schema| =>
      Attribute(firstId + i, schema[i].identifier, resolveType(schema[i].attributeType), i + 1,
                DataByIdentifier(source, schema[i].identifier)))
  }

  // ---------------------------------------------------------------------------
  // create
  // ---------------------------------------------------------------------------

  datatype Created = Created(store: Store, pageId: nat)

  /**
   * `create`: a new page pointing at version 1, holding exactly one version, a draft
   * numbered 1, whose attributes are seeded (empty) from the page type's schema.
   */
  function Create(s: Store, pt: PageType, user: nat, parentPageId: nat, resolveType: string -> string): (r: Created)
    requires Valid(s)
    ensures Valid(r.store) && r.store.nextPageId == s.nextPageId + 1
    ensures r.pageId !in s.pages && r.pageId in r.store.pages
    ensures forall id :: id != r.pageId ==> (id in r.store.pages <==> id in s.pages)
    ensures forall id :: id in s.pages ==> r.store.pages[id] == s.pages[id]
    ensures var p := r.store.pages[r.pageId];
      && p.id == r.pageId && p.pageType == pt.identifier && p.parentPageId == parentPageId
      && p.createdBy == user && p.editedBy == user && !p.isTrashed
      && p.currentVersion == 1 && p.versions.Keys == {1}
      && p.versions[1].number == 1 && p.versions[1].status == Draft
      && p.versions[1].createdBy == user && p.versions[1].editedBy == user
    ensures var attrs := r.store.pages[r.pageId].versions[1].attributes;
      && |attrs| == |pt.attributes|
      && forall i :: 0 <= i < |attrs| ==>
           && attrs[i].identifier == pt.attributes[i].identifier
           && attrs[i].attributeType == resolveType(pt.attributes[i].attributeType)
           && attrs[i].order == i + 1
           && attrs[i].data == ""
  {
    var id := s.nextPageId;
    var attrs := SeedAttributes(pt.attributes, s.nextAttributeId, resolveType, []);
    var v := Version(1, Draft, "", user, user, attrs);
    var p := Page(id, pt.identifier, "", "", parentPageId, 0, 1, false, user, user, map[1 := v]);
    AddPageKeepsValid(s, p, s.nextAttributeId + |pt.attributes|);
    Created(Store(s.pages[id := p], id + 1, s.nextAttributeId + |pt.attributes|), id)
  }

  /** Adding a well-formed page under the next page id keeps the store well formed. */
  lemma AddPageKeepsValid(s: Store, p: Page, nextAttributeId: nat)
    requires Valid(s) && p.id == s.nextPageId && WellKeyed(p) && s.nextAttributeId <= nextAttributeId
    requires forall n :: n in p.versions ==> AttributeIdsBelow(p.versions[n].attributes, nextAttributeId)
    ensures p.id !in s.pages
    ensures Valid(Store(s.pages[p.id := p], p.id + 1, nextAttributeId))
  {
    var r := Store(s.pages[p.id := p], p.id + 1, nextAttributeId);
    forall id | id in s.pages
      ensures forall n :: n in s.pages[id].versions ==> AttributeIdsBelow(s.pages[id].versions[n].attributes, nextAttributeId)
    {
    }
  }

  /** A freshly created page satisfies the lifecycle invariant. */
  lemma CreateLifecycle(s: Store, pt: PageType, user: nat, parentPageId: nat, resolveType: string -> string)
    requires Valid(s) && AllLifecycle(s)
    ensures AllLifecycle(Create(s, pt, user, parentPageId, resolveType).store)
  {
  }

  // ---------------------------------------------------------------------------
  // getDraftVersion
  // ---------------------------------------------------------------------------

  /**
   * `getDraftVersion`: the page's draft with that number; PageNotFound when the page
   * is missing, PageVersionNotFound when it has no such draft.
   */
  function GetDraftVersion(s: Store, pageId: nat, number: nat): (r: Result<Version, RepoError>)
    ensures r == Err(PageNotFound) <==> pageId !in s.pages
    ensures r == Err(PageVersionNotFound) <==>
      pageId in s.pages && !(number in s.pages[pageId].versions && s.pages[pageId].versions[number].status == Draft)
    ensures r.Ok? ==> pageId in s.pages && number in s.pages[pageId].versions
                      && r.value == s.pages[pageId].versions[number] && r.value.status == Draft
  {
    if pageId in s.pages then
      var p := s.pages[pageId];
      if number in p.versions && p.versions[number].status == Draft then Ok(p.versions[number])
      else Err(PageVersionNotFound)
    else Err(PageNotFound)
  }

  /** The first version of a new page is a draft that can be fetched for editing. */
  lemma CreatedDraftIsFetchable(s: Store, pt: PageType, user: nat, parentPageId: nat, resolveType: string -> string)
    requires Valid(s)
    ensures var c := Create(s, pt, user, parentPageId, resolveType);
      GetDraftVersion(c.store, c.pageId, 1) == Ok(c.store.pages[c.pageId].versions[1])
  {
  }

  // ---------------------------------------------------------------------------
  // saveDraftVersion
  // ---------------------------------------------------------------------------

  /** What an attribute type's `store` does with a submitted value. */
  datatype StoreOutcome = Stored(data: string) | Rejected(message: string)

  /** The URL registry's verdict on a candidate slug (`canUse`). */
  datatype SlugCheck = Usable | InvalidSlug | UrlAlreadyExists

  /** The key a failed attribute is reported under. */
  function AttributeKey(id: nat): (k: string)
    ensures |k| > 10 && k[..10] == "attribute_" && k != "slug"
  {
    "attribute_" + NatToString(id)
  }

  lemma AttributeKeyInjective(a: nat, b: nat)
    requires AttributeKey(a) == AttributeKey(b)
    ensures a == b
  {
    assert AttributeKey(a)[10..] == NatToString(a);
    assert AttributeKey(b)[10..] == NatToString(b);
    NatToStringInjective(a, b);
  }

  /** The submitted value for a key: `$data[$key]`, null when absent. */
  function Submitted(data: map<string, string>, key: string): Option<string>
  {
    if key in data then Some(data[key]) else None
  }

  function Attempt(a: Attribute, data: map<string, string>, storeFn: (Attribute, Option<string>) -> StoreOutcome): StoreOutcome
  {
    storeFn(a, Submitted(data, AttributeKey(a.id)))
  }

  /** The attribute after its store attempt: the new data when stored, unchanged when rejected. */
  function AfterAttempt(a: Attribute, o: StoreOutcome): Attribute
  {
    match o
    case Stored(d) => a.(data := d)
    case Rejected(_) => a
  }

  predicate RejectedAt(attrs: seq<Attribute>, data: map<string, string>, storeFn: (Attribute, Option<string>) -> StoreOutcome, k: string)
  {
    exists i :: 0 <= i < |attrs| && AttributeKey(attrs[i].id) == k && Attempt(attrs[i], data, storeFn).Rejected?
  }

  lemma RejectedAtCons(attrs: seq<Attribute>, data: map<string, string>, storeFn: (Attribute, Option<string>) -> StoreOutcome, k: string)
    requires |attrs| > 0
    ensures RejectedAt(attrs, data, storeFn, k) <==>
      (AttributeKey(attrs[0].id) == k && Attempt(attrs[0], data, storeFn).Rejected?) || RejectedAt(attrs[1..], data, storeFn, k)
  {
    if RejectedAt(attrs[1..], data, storeFn, k) {
      var i :| 0 <= i < |attrs[1..]| && AttributeKey(attrs[1..][i].id) == k && Attempt(attrs[1..][i], data, storeFn).Rejected?;
      assert attrs[i + 1] == attrs[1..][i];
    }
    if RejectedAt(attrs, data, storeFn, k) {
      var i :| 0 <= i < |attrs| && AttributeKey(attrs[i].id) == k && Attempt(attrs[i], data, storeFn).Rejected?;
      if i > 0 {
        assert attrs[1..][i - 1] == attrs[i];
      }
    }
  }

  /** Each attribute after its own store attempt; no attempt depends on another. */
  function StoredAttributes(attrs: seq<Attribute>, data: map<string, string>,
                            storeFn: (Attribute, Option<string>) -> StoreOutcome): seq<Attribute>
  {
    seq(|attrs|, i requires 0 <= i < |attrs| => AfterAttempt(attrs[i], Attempt(attrs[i], data, storeFn)))
  }

  /**
   * The failures the attribute loop collects on top of `failed`: every rejected
   * attribute is recorded under its key, and the loop never stops early.
   */
  function Failures(attrs: seq<Attribute>, data: map<string, string>,
                    storeFn: (Attribute, Option<string>) -> StoreOutcome, failed: Arr<string>): (r: Arr<string>)
    ensures forall k :: k in Keys(r) <==> k in Keys(failed) || RejectedAt(attrs, data, storeFn, k)
    ensures forall k :: !RejectedAt(attrs, data, storeFn, k) ==> Get(r, k) == Get(failed, k)
    decreases |attrs|
  {
    if |attrs| == 0 then failed
    else
      var a := attrs[0];
      var o := Attempt(a, data, storeFn);
      var failed' := if o.Rejected? then Put(failed, AttributeKey(a.id), o.message) else failed;
      var r := Failures(attrs[1..], data, storeFn, failed');
      assert forall k :: RejectedAt(attrs, data, storeFn, k) <==>
        (AttributeKey(a.id) == k && o.Rejected?) || RejectedAt(attrs[1..], data, storeFn, k) by {
        forall k {
          RejectedAtCons(attrs, data, storeFn, k);
        }
      }
      r
  }

  /** A rejected attribute whose id no later attribute shares is reported with its own message. */
  lemma {:induction false} FailureMessage(attrs: seq<Attribute>, data: map<string, string>,
                                          storeFn: (Attribute, Option<string>) -> StoreOutcome, failed: Arr<string>, i: nat)
    requires i < |attrs| && Attempt(attrs[i], data, storeFn).Rejected?
    requires forall j :: i < j < |attrs| ==> attrs[j].id != attrs[i].id
    ensures Get(Failures(attrs, data, storeFn, failed), AttributeKey(attrs[i].id)) == Some(Attempt(attrs[i], data, storeFn).message)
    decreases |attrs|
  {
    var a := attrs[0];
    var o := Attempt(a, data, storeFn);
    var failed' := if o.Rejected? then Put(failed, AttributeKey(a.id), o.message) else failed;
    var k := AttributeKey(attrs[i].id);
    if i == 0 {
      if RejectedAt(attrs[1..], data, storeFn, k) {
        var j :| 0 <= j < |attrs[1..]| && AttributeKey(attrs[1..][j].id) == k && Attempt(attrs[1..][j], data, storeFn).Rejected?;
        assert attrs[1..][j] == attrs[j + 1];
        AttributeKeyInjective(attrs[j + 1].id, attrs[0].id);
        assert false;
      }
    } else {
      assert attrs[1..][i - 1] == attrs[i];
      FailureMessage(attrs[1..], data, storeFn, failed', i - 1);
    }
  }

  /** The outcome of `saveDraftVersion`: the store is written either way. */
  datatype SaveResult = SaveResult(store: Store, failed: Arr<string>) {
    /** A ValidationException carrying `failed` is raised. */
    predicate Raises()
    {
      |failed| > 0
    }
  }

  function SlugMessage(c: SlugCheck): string
  {
    match c
    case Usable => ""
    case InvalidSlug => "The slug is not valid"
    case UrlAlreadyExists => "The slug is already in use"
  }

  /** The slug the form submitted (`$data['slug']`, modelled as '' when absent). */
  function RequestedSlug(data: map<string, string>): string
  {
    if "slug" in data then data["slug"] else ""
  }

  /**
   * The body of `saveDraftVersion` on one version: every attribute is attempted; the
   * slug becomes the requested one only if the URL registry accepts
   * `base_slug + slug` for this page, otherwise a 'slug' failure with a message
   * telling an invalid slug from a taken one is recorded. The failures are exactly
   * the rejected attributes' keys and, when refused, 'slug'.
   */
  function SaveVersion(v: Version, pageId: nat, data: map<string, string>, baseSlug: string,
                       storeFn: (Attribute, Option<string>) -> StoreOutcome,
                       canUse: (string, string, nat) -> SlugCheck): (r: (Version, Arr<string>))
    ensures r.0.number == v.number && r.0.status == v.status
    ensures r.0.createdBy == v.createdBy && r.0.editedBy == v.editedBy
    ensures |r.0.attributes| == |v.attributes|
    ensures forall i :: 0 <= i < |v.attributes| ==>
      r.0.attributes[i] == AfterAttempt(v.attributes[i], Attempt(v.attributes[i], data, storeFn))
    ensures canUse(baseSlug + RequestedSlug(data), "page", pageId) == Usable ==>
      r.0.slug == RequestedSlug(data) && "slug" !in Keys(r.1)
    ensures canUse(baseSlug + RequestedSlug(data), "page", pageId) != Usable ==>
      r.0.slug == v.slug && Get(r.1, "slug") == Some(SlugMessage(canUse(baseSlug + RequestedSlug(data), "page", pageId)))
    ensures forall k :: k in Keys(r.1) <==>
      (k == "slug" && canUse(baseSlug + RequestedSlug(data), "page", pageId) != Usable) || RejectedAt(v.attributes, data, storeFn, k)
    ensures |r.1| > 0 <==>
      canUse(baseSlug + RequestedSlug(data), "page", pageId) != Usable || exists k :: RejectedAt(v.attributes, data, storeFn, k)
  {
    var attrs := StoredAttributes(v.attributes, data, storeFn);
    var attrFailures := Failures(v.attributes, data, storeFn, []);
    var check := canUse(baseSlug + RequestedSlug(data), "page", pageId);
    var failed := if check == Usable then attrFailures else Put(attrFailures, "slug", SlugMessage(check));
    var slug := if check == Usable then RequestedSlug(data) else v.slug;
    assert "slug" in Keys(attrFailures) ==> RejectedAt(v.attributes, data, storeFn, "slug");
    assert |failed| == |Keys(failed)|;
    assert |failed| > 0 ==> failed[0].0 in Keys(failed);
    assert forall k :: RejectedAt(v.attributes, data, storeFn, k) ==> k in Keys(failed);
    (v.(slug := slug, attributes := attrs), failed)
  }

  /**
   * `saveDraftVersion`: the version is written back whatever failed, nothing else in
   * the store changes, and a validation error is raised when anything failed.
   */
  function SaveDraftVersion(s: Store, pageId: nat, number: nat, data: map<string, string>, baseSlug: string,
                            storeFn: (Attribute, Option<string>) -> StoreOutcome,
                            canUse: (string, string, nat) -> SlugCheck): (r: SaveResult)
    requires pageId in s.pages && number in s.pages[pageId].versions
    ensures r.store.nextPageId == s.nextPageId && r.store.nextAttributeId == s.nextAttributeId
    ensures r.store.pages.Keys == s.pages.Keys
    ensures forall id :: id in s.pages && id != pageId ==> r.store.pages[id] == s.pages[id]
    ensures r.store.pages[pageId] == s.pages[pageId].(versions := r.store.pages[pageId].versions)
    ensures r.store.pages[pageId].versions.Keys == s.pages[pageId].versions.Keys
    ensures forall n :: n in s.pages[pageId].versions && n != number ==>
      r.store.pages[pageId].versions[n] == s.pages[pageId].versions[n]
    ensures (r.store.pages[pageId].versions[number], r.failed) ==
      SaveVersion(s.pages[pageId].versions[number], pageId, data, baseSlug, storeFn, canUse)
  {
    var p := s.pages[pageId];
    var saved := SaveVersion(p.versions[number], pageId, data, baseSlug, storeFn, canUse);
    SaveResult(s.(pages := s.pages[pageId := p.(versions := p.versions[number := saved.0])]), saved.1)
  }

  /** Attribute failures never stop later attributes from being stored. */
  lemma NoShortCircuit(v: Version, pageId: nat, data: map<string, string>, baseSlug: string,
                       storeFn: (Attribute, Option<string>) -> StoreOutcome,
                       canUse: (string, string, nat) -> SlugCheck, i: nat, j: nat)
    requires i < j < |v.attributes|
    requires Attempt(v.attributes[i], data, storeFn).Rejected? && Attempt(v.attributes[j], data, storeFn).Stored?
    ensures var r := SaveVersion(v, pageId, data, baseSlug, storeFn, canUse);
      && |r.1| > 0
      && AttributeKey(v.attributes[i].id) in Keys(r.1)
      && r.0.attributes[j].data == Attempt(v.attributes[j], data, storeFn).data
  {
    assert RejectedAt(v.attributes, data, storeFn, AttributeKey(v.attributes[i].id));
  }

  /** With distinct attribute ids, each rejected attribute is reported with its own message. */
  lemma SaveReportsMessages(v: Version, pageId: nat, data: map<string, string>, baseSlug: string,
                            storeFn: (Attribute, Option<string>) -> StoreOutcome,
                            canUse: (string, string, nat) -> SlugCheck, i: nat)
    requires i < |v.attributes| && Attempt(v.attributes[i], data, storeFn).Rejected?
    requires forall j :: 0 <= j < |v.attributes| && j != i ==> v.attributes[j].id != v.attributes[i].id
    ensures Get(SaveVersion(v, pageId, data, baseSlug, storeFn, canUse).1, AttributeKey(v.attributes[i].id))
            == Some(Attempt(v.attributes[i], data, storeFn).message)
  {
    FailureMessage(v.attributes, data, storeFn, [], i);
  }

  /**
   * A refused slug keeps the version's old slug and is reported under 'slug': an
   * invalid slug as not valid, a slug held by another URL as already in use, so the
   * two refusals read differently.
   */
  lemma SlugRefusalsReported(v: Version, pageId: nat, data: map<string, string>, baseSlug: string,
                             storeFn: (Attribute, Option<string>) -> StoreOutcome,
                             invalid: (string, string, nat) -> SlugCheck, taken: (string, string, nat) -> SlugCheck)
    requires invalid(baseSlug + RequestedSlug(data), "page", pageId) == InvalidSlug
    requires taken(baseSlug + RequestedSlug(data), "page", pageId) == UrlAlreadyExists
    ensures var r := SaveVersion(v, pageId, data, baseSlug, storeFn, invalid);
      r.0.slug == v.slug && Get(r.1, "slug") == Some("The slug is not valid")
    ensures var r := SaveVersion(v, pageId, data, baseSlug, storeFn, taken);
      r.0.slug == v.slug && Get(r.1, "slug") == Some("The slug is already in use")
    ensures Get(SaveVersion(v, pageId, data, baseSlug, storeFn, invalid).1, "slug")
            != Get(SaveVersion(v, pageId, data, baseSlug, storeFn, taken).1, "slug")
  {
  }

  /** Saving keeps the store well formed and the lifecycle invariant (statuses are untouched). */
  lemma SaveDraftKeepsInvariants(s: Store, pageId: nat, number: nat, data: map<string, string>, baseSlug: string,
                                 storeFn: (Attribute, Option<string>) -> StoreOutcome,
                                 canUse: (string, string, nat) -> SlugCheck)
    requires pageId in s.pages && number in s.pages[pageId].versions
    requires Valid(s) && AllLifecycle(s)
    ensures var r := SaveDraftVersion(s, pageId, number, data, baseSlug, storeFn, canUse);
      Valid(r.store) && AllLifecycle(r.store)
  {
    var r := SaveDraftVersion(s, pageId, number, data, baseSlug, storeFn, canUse);
    var p := s.pages[pageId];
    var saved := SaveVersion(p.versions[number], pageId, data, baseSlug, storeFn, canUse).0;
    var p' := p.(versions := p.versions[number := saved]);
    SavedPageKeepsShape(p, number, saved, s.nextAttributeId);
    assert r.store == s.(pages := s.pages[pageId := p']);
    ReplacePageKeepsInvariants(s, pageId, p');
  }

  /** Writing back a version with the same number, status and attribute ids keeps a page's shape and lifecycle. */
  lemma SavedPageKeepsShape(p: Page, number: nat, saved: Version, bound: nat)
    requires number in p.versions && WellKeyed(p) && Lifecycle(p)
    requires forall n :: n in p.versions ==> AttributeIdsBelow(p.versions[n].attributes, bound)
    requires saved.number == number && saved.status == p.versions[number].status
    requires |saved.attributes| == |p.versions[number].attributes|
    requires forall i :: 0 <= i < |saved.attributes| ==> saved.attributes[i].id == p.versions[number].attributes[i].id
    ensures var p' := p.(versions := p.versions[number := saved]);
      && WellKeyed(p') && Lifecycle(p')
      && forall n :: n in p'.versions ==> AttributeIdsBelow(p'.versions[n].attributes, bound)
  {
    assert AttributeIdsBelow(saved.attributes, bound) by {
      assert AttributeIdsBelow(p.versions[number].attributes, bound);
    }
  }

  /** Replacing one page by a well-formed page keeps the store well formed. */
  lemma ReplacePageKeepsValid(s: Store, pageId: nat, p': Page)
    requires Valid(s) && pageId in s.pages
    requires p'.id == pageId && WellKeyed(p')
    requires forall n :: n in p'.versions ==> AttributeIdsBelow(p'.versions[n].attributes, s.nextAttributeId)
    ensures Valid(s.(pages := s.pages[pageId := p']))
  {
  }

  /** Replacing one page by a well-formed page that keeps the lifecycle invariant keeps both invariants. */
  lemma ReplacePageKeepsInvariants(s: Store, pageId: nat, p': Page)
    requires Valid(s) && AllLifecycle(s) && pageId in s.pages
    requires p'.id == pageId && WellKeyed(p') && Lifecycle(p')
    requires forall n :: n in p'.versions ==> AttributeIdsBelow(p'.versions[n].attributes, s.nextAttributeId)
    ensures Valid(s.(pages := s.pages[pageId := p'])) && AllLifecycle(s.(pages := s.pages[pageId := p']))
  {
  }

  // ---------------------------------------------------------------------------
  // discardDraftVersion
  // ---------------------------------------------------------------------------

  /**
   * `discardDraftVersion`: removes the version, and the page with it exactly when no
   * other version remains; otherwise the page is left as it was apart from that version.
   */
  function DiscardDraftVersion(s: Store, pageId: nat, number: nat): (r: Store)
    requires pageId in s.pages && number in s.pages[pageId].versions
    ensures r.nextPageId == s.nextPageId && r.nextAttributeId == s.nextAttributeId
    ensures pageId !in r.pages <==> s.pages[pageId].versions.Keys == {number}
    ensures pageId in r.pages ==>
      && number !in r.pages[pageId].versions
      && r.pages[pageId].versions.Keys == s.pages[pageId].versions.Keys - {number}
      && r.pages[pageId] == s.pages[pageId].(versions := r.pages[pageId].versions)
      && forall n :: n in r.pages[pageId].versions ==> r.pages[pageId].versions[n] == s.pages[pageId].versions[n]
    ensures forall id :: id != pageId ==> (id in r.pages <==> id in s.pages)
    ensures forall id :: id in s.pages && id != pageId ==> r.pages[id] == s.pages[id]
  {
    var p := s.pages[pageId];
    var remaining := p.versions - {number};
    if |remaining| == 0 then
      assert p.versions.Keys == {number} by {
        assert forall n :: n in p.versions ==> n == number || n in remaining;
      }
      s.(pages := s.pages - {pageId})
    else
      assert p.versions.Keys != {number} by {
        var n :| n in remaining;
      }
      s.(pages := s.pages[pageId := p.(versions := remaining)])
  }

  /** Discarding the only version of a freshly created page removes the page again. */
  lemma CreateThenDiscard(s: Store, pt: PageType, user: nat, parentPageId: nat, resolveType: string -> string)
    requires Valid(s)
    ensures var c := Create(s, pt, user, parentPageId, resolveType);
      DiscardDraftVersion(c.store, c.pageId, 1).pages == s.pages
  {
    var c := Create(s, pt, user, parentPageId, resolveType);
    var r := DiscardDraftVersion(c.store, c.pageId, 1);
    assert r.pages.Keys == s.pages.Keys;
  }

  /** Discarding keeps the store well formed and the lifecycle invariant. */
  lemma DiscardKeepsInvariants(s: Store, pageId: nat, number: nat)
    requires pageId in s.pages && number in s.pages[pageId].versions
    requires Valid(s) && AllLifecycle(s)
    ensures Valid(DiscardDraftVersion(s, pageId, number)) && AllLifecycle(DiscardDraftVersion(s, pageId, number))
  {
    var p := s.pages[pageId];
    var remaining := p.versions - {number};
    if |remaining| > 0 {
      var p' := p.(versions := remaining);
      assert DiscardDraftVersion(s, pageId, number) == s.(pages := s.pages[pageId := p']);
      ReplacePageKeepsInvariants(s, pageId, p');
    }
  }

  // ---------------------------------------------------------------------------
  // publishVersion
  // ---------------------------------------------------------------------------
  /** A URL handed to the URL registry: `register(url, owner kind, owner id)`. */
  datatype Registration = Registration(url: string, ownerKind: string, ownerId: nat)

  /**
   * The outcome of `publishVersion`: the page published and repointed with its URL
   * registered, or the store a failure left behind, possibly part-way written.
   */
  datatype PublishOutcome =
    | PublishedAs(store: Store, registered: Registration)
    | PublishAborted(store: Store, error: RepoError)

  /**
   * The archive write hits the row of version `number` itself while that row is already
   * published. The archive goes through the page's own copy of the current version. The
   * caller's copy of version `number` then still reads `published`, so setting it to
   * `published` changes nothing, and its save writes no column.
   */
  predicate ArchivesItself(p: Page, number: nat, archive: bool)
    requires number in p.versions
  {
    archive && p.currentVersion == number && p.versions[number].status == Published
  }

  /**
   * The versions after the status writes of a publication:
   * - version `number` is published, unless it archived itself (`ArchivesItself`);
   * - when `archive` holds and the current version is another one, that one is archived;
   * - every other version is as it was.
   */
  predicate StatusesWritten(p: Page, versions: map<nat, Version>, number: nat, archive: bool)
    requires number in p.versions
  {
    && versions.Keys == p.versions.Keys
    && versions[number] == p.versions[number].(status := if ArchivesItself(p, number, archive) then Archived else Published)
    && (archive && p.currentVersion != number ==>
          && p.currentVersion in p.versions
          && versions[p.currentVersion] == p.versions[p.currentVersion].(status := Archived))
    && forall n :: n in p.versions && n != number && !(archive && n == p.currentVersion) ==> versions[n] == p.versions[n]
  }

  /**
   * What publishing version `number` of page `pageId` does, where `archive` says
   * whether the current version is archived first:
   * - archiving a current version that does not exist is a call on null, before any write;
   * - otherwise the status writes happen and only page `pageId` changes;
   * - when the page's type is not registered, its lookup fails after those writes, and
   *   the page keeps its name and its current version;
   * - otherwise the page is renamed by its type's `generateName` of the caller's copy of
   *   the version, marked published. The page points at that version, and
   *   `base_slug + slug` is registered for it.
   */
  predicate PublishEffect(s: Store, pageId: nat, number: nat, baseSlug: string,
                          generatorOf: string -> Option<Version -> string>, archive: bool, r: PublishOutcome)
    requires pageId in s.pages && number in s.pages[pageId].versions
  {
    var p := s.pages[pageId];
    if archive && CurrentVersion(p).None? then
      r == PublishAborted(s, NullReference("current version"))
    else
      && SamePagesElsewhere(s, r.store, pageId)
      && r.store.nextAttributeId == s.nextAttributeId
      && var p' := r.store.pages[pageId];
         && StatusesWritten(p, p'.versions, number, archive)
         && match generatorOf(p.pageType)
            case None =>
              && r == PublishAborted(r.store, PageTypeNotFound)
              && p' == p.(versions := p'.versions)
            case Some(generateName) =>
              && r == PublishedAs(r.store, Registration(baseSlug + p.versions[number].slug, "page", pageId))
              && p' == p.(versions := p'.versions, name := generateName(p.versions[number].(status := Published)),
                          currentVersion := number)
  }

  /**
   * The status writes of a publication. Saving the caller's copy of the version writes
   * its status only when setting it changed it, that is, when it was not yet published.
   */
  function MarkPublished(p: Page, number: nat, archive: bool): (versions: map<nat, Version>)
    requires number in p.versions && (archive ==> p.currentVersion in p.versions)
    ensures StatusesWritten(p, versions, number, archive)
  {
    var archived :=
      if archive then p.versions[p.currentVersion := p.versions[p.currentVersion].(status := Archived)]
      else p.versions;
    if p.versions[number].status == Published then archived
    else archived[number := archived[number].(status := Published)]
  }

  /** A publication, archiving the current version first exactly when `archive` holds. */
  function Publish(s: Store, pageId: nat, number: nat, baseSlug: string,
                   generatorOf: string -> Option<Version -> string>, archive: bool): (r: PublishOutcome)
    requires pageId in s.pages && number in s.pages[pageId].versions
    ensures PublishEffect(s, pageId, number, baseSlug, generatorOf, archive, r)
  {
    var p := s.pages[pageId];
    if archive && p.currentVersion !in p.versions then PublishAborted(s, NullReference("current version"))
    else
      var versions := MarkPublished(p, number, archive);
      match generatorOf(p.pageType)
      case None => PublishAborted(s.(pages := s.pages[pageId := p.(versions := versions)]), PageTypeNotFound)
      case Some(generateName) =>
        var p' := p.(versions := versions, name := generateName(p.versions[number].(status := Published)), currentVersion := number);
        PublishedAs(s.(pages := s.pages[pageId := p']), Registration(baseSlug + p.versions[number].slug, "page", pageId))
  }

  /**
   * `publishVersion`: the current version is archived first unless the version being
   * published is number 1. `generatorOf` maps a page type identifier to that type's
   * `generateName` when the type is registered.
   */
  function PublishVersion(s: Store, pageId: nat, number: nat, baseSlug: string,
                          generatorOf: string -> Option<Version -> string>): (r: PublishOutcome)
    requires pageId in s.pages && number in s.pages[pageId].versions
    ensures PublishEffect(s, pageId, number, baseSlug, generatorOf, number != 1, r)
    ensures r.PublishedAs? <==>
      (number == 1 || CurrentVersion(s.pages[pageId]).Some?) && generatorOf(s.pages[pageId].pageType).Some?
  {
    Publish(s, pageId, number, baseSlug, generatorOf, number != 1)
  }

  /**
   * `publishVersion` as evidently intended: the current version is archived unless it
   * is the version being published. The test on the number 1 stands for "the first
   * publication", which it is only while version 1 is also the current version.
   */
  function PublishVersionIntended(s: Store, pageId: nat, number: nat, baseSlug: string,
                                  generatorOf: string -> Option<Version -> string>): (r: PublishOutcome)
    requires pageId in s.pages && number in s.pages[pageId].versions
    ensures PublishEffect(s, pageId, number, baseSlug, generatorOf, s.pages[pageId].currentVersion != number, r)
  {
    Publish(s, pageId, number, baseSlug, generatorOf, s.pages[pageId].currentVersion != number)
  }

  /**
   * After a publication the page keeps the lifecycle invariant, provided a current
   * version left unarchived is the published one, or else is not published itself
   * while version 1 is.
   */
  lemma PublishedPageLifecycle(p: Page, versions: map<nat, Version>, number: nat, archive: bool, name: string)
    requires number in p.versions && Lifecycle(p) && StatusesWritten(p, versions, number, archive)
    requires !archive && p.currentVersion != number ==>
      number == 1 && (p.currentVersion in p.versions ==> p.versions[p.currentVersion].status != Published)
    ensures Lifecycle(p.(versions := versions, name := name, currentVersion := number))
  {
  }

  /** Publication changes statuses only, never version numbers or attributes. */
  lemma PublishedPageShape(p: Page, versions: map<nat, Version>, number: nat, archive: bool, bound: nat)
    requires number in p.versions && WellKeyed(p) && StatusesWritten(p, versions, number, archive)
    requires forall n :: n in p.versions ==> AttributeIdsBelow(p.versions[n].attributes, bound)
    ensures forall n :: n in versions ==> versions[n].number == n && AttributeIdsBelow(versions[n].attributes, bound)
  {
    forall n | n in versions
      ensures versions[n].number == n && AttributeIdsBelow(versions[n].attributes, bound)
    {
      assert versions[n].number == p.versions[n].number && versions[n].attributes == p.versions[n].attributes;
      assert AttributeIdsBelow(p.versions[n].attributes, bound);
    }
  }

  /**
   * A publication keeps the store well formed whatever its outcome; a successful one
   * keeps the lifecycle invariant under the condition of `PublishedPageLifecycle`.
   */
  lemma PublicationKeepsInvariants(s: Store, pageId: nat, number: nat, baseSlug: string,
                                   generatorOf: string -> Option<Version -> string>, archive: bool)
    requires pageId in s.pages && number in s.pages[pageId].versions
    requires Valid(s) && AllLifecycle(s)
    requires var p := s.pages[pageId];
      !archive && p.currentVersion != number ==>
        number == 1 && (p.currentVersion in p.versions ==> p.versions[p.currentVersion].status != Published)
    ensures var r := Publish(s, pageId, number, baseSlug, generatorOf, archive);
      Valid(r.store) && (r.PublishedAs? ==> AllLifecycle(r.store))
  {
    var r := Publish(s, pageId, number, baseSlug, generatorOf, archive);
    var p := s.pages[pageId];
    if !(archive && CurrentVersion(p).None?) {
      var p' := r.store.pages[pageId];
      assert r.store.pages == s.pages[pageId := p'];
      assert r.store == s.(pages := s.pages[pageId := p']);
      PublishedPageShape(p, p'.versions, number, archive, s.nextAttributeId);
      if r.PublishedAs? {
        PublishedPageLifecycle(p, p'.versions, number, archive, p'.name);
        ReplacePageKeepsInvariants(s, pageId, p');
      } else {
        ReplacePageKeepsValid(s, pageId, p');
      }
    }
  }

  /**
   * `publishVersion` keeps the store well formed whatever its outcome, and a
   * successful publication keeps the lifecycle invariant, so the page has at most one
   * published version, unless version 1 is republished while another version is
   * published and current (`RepublishingFirstLeavesTwoPublished`).
   */
  lemma PublishKeepsLifecycle(s: Store, pageId: nat, number: nat, baseSlug: string,
                              generatorOf: string -> Option<Version -> string>)
    requires pageId in s.pages && number in s.pages[pageId].versions
    requires Valid(s) && AllLifecycle(s)
    requires var p := s.pages[pageId];
      number == 1 && p.currentVersion != 1 && p.currentVersion in p.versions ==> p.versions[p.currentVersion].status != Published
    ensures var r := PublishVersion(s, pageId, number, baseSlug, generatorOf);
      Valid(r.store) && (r.PublishedAs? ==> AllLifecycle(r.store))
  {
    PublicationKeepsInvariants(s, pageId, number, baseSlug, generatorOf, number != 1);
  }

  /** Publishing a draft in particular keeps the lifecycle invariant. */
  lemma PublishDraftKeepsLifecycle(s: Store, pageId: nat, number: nat, baseSlug: string,
                                   generatorOf: string -> Option<Version -> string>)
    requires pageId in s.pages && number in s.pages[pageId].versions
    requires s.pages[pageId].versions[number].status == Draft
    requires Valid(s) && AllLifecycle(s)
    ensures var r := PublishVersion(s, pageId, number, baseSlug, generatorOf);
      Valid(r.store) && (r.PublishedAs? ==> AllLifecycle(r.store))
  {
    PublishKeepsLifecycle(s, pageId, number, baseSlug, generatorOf);
  }

  /**
   * Republishing version 1 while another version is published and current: the test
   * on the number skips the archive step, and two versions end up published.
   */
  lemma RepublishingFirstLeavesTwoPublished(s: Store, pageId: nat, baseSlug: string,
                                            generatorOf: string -> Option<Version -> string>)
    requires pageId in s.pages && 1 in s.pages[pageId].versions
    requires var p := s.pages[pageId];
      p.currentVersion != 1 && p.currentVersion in p.versions && p.versions[p.currentVersion].status == Published
    requires generatorOf(s.pages[pageId].pageType).Some?
    ensures var r := PublishVersion(s, pageId, 1, baseSlug, generatorOf);
      && r.PublishedAs?
      && r.store.pages[pageId].versions[1].status == Published
      && r.store.pages[pageId].versions[s.pages[pageId].currentVersion].status == Published
      && !Lifecycle(r.store.pages[pageId])
  {
    var p := s.pages[pageId];
    var r := PublishVersion(s, pageId, 1, baseSlug, generatorOf);
    var p' := r.store.pages[pageId];
    assert p'.versions[p.currentVersion] == p.versions[p.currentVersion];
  }

  /**
   * A store that meets both invariants and still reaches the case above: version 1
   * archived, version 2 published and current.
   */
  lemma RepublishingFirstExample(generatorOf: string -> Option<Version -> string>)
    requires generatorOf("article").Some?
    ensures var p := Page(1, "article", "", "", 0, 0, 2, false, 0, 0,
                          map[1 := Version(1, Archived, "a", 0, 0, []), 2 := Version(2, Published, "b", 0, 0, [])]);
      var s := Store(map[1 := p], 2, 0);
      && Valid(s) && AllLifecycle(s)
      && var r := PublishVersion(s, 1, 1, "", generatorOf);
         r.PublishedAs? && !Lifecycle(r.store.pages[1])
  {
    var p := Page(1, "article", "", "", 0, 0, 2, false, 0, 0,
                  map[1 := Version(1, Archived, "a", 0, 0, []), 2 := Version(2, Published, "b", 0, 0, [])]);
    var s := Store(map[1 := p], 2, 0);
    assert Lifecycle(p);
    RepublishingFirstLeavesTwoPublished(s, 1, "", generatorOf);
  }

  /** The intended publication keeps the lifecycle invariant whatever the version's status. */
  lemma IntendedPublishKeepsLifecycle(s: Store, pageId: nat, number: nat, baseSlug: string,
                                      generatorOf: string -> Option<Version -> string>)
    requires pageId in s.pages && number in s.pages[pageId].versions
    requires Valid(s) && AllLifecycle(s)
    ensures var r := PublishVersionIntended(s, pageId, number, baseSlug, generatorOf);
      Valid(r.store) && (r.PublishedAs? ==> AllLifecycle(r.store))
  {
    PublicationKeepsInvariants(s, pageId, number, baseSlug, generatorOf, s.pages[pageId].currentVersion != number);
  }

  /**
   * An unregistered page type stops `publishVersion` after the status writes: the
   * version is published while the page still points at another one.
   */
  lemma UnknownTypeLeavesStrayPublished(s: Store, pageId: nat, number: nat, baseSlug: string,
                                        generatorOf: string -> Option<Version -> string>)
    requires pageId in s.pages && number in s.pages[pageId].versions
    requires number == 1 || CurrentVersion(s.pages[pageId]).Some?
    requires generatorOf(s.pages[pageId].pageType).None? && s.pages[pageId].currentVersion != number
    ensures var r := PublishVersion(s, pageId, number, baseSlug, generatorOf);
      && r.PublishAborted? && r.error == PageTypeNotFound
      && r.store.pages[pageId].versions[number].status == Published
      && r.store.pages[pageId].currentVersion == s.pages[pageId].currentVersion
      && !Lifecycle(r.store.pages[pageId])
  {
  }

  /**
   * After a successful publication the page points at the version and is no longer a
   * draft. Its status is published, except when the version was already published and
   * current and is not version 1: then it archived itself.
   */
  lemma PublishedIsCurrent(s: Store, pageId: nat, number: nat, baseSlug: string,
                           generatorOf: string -> Option<Version -> string>)
    requires pageId in s.pages && number in s.pages[pageId].versions
    requires number == 1 || CurrentVersion(s.pages[pageId]).Some?
    requires generatorOf(s.pages[pageId].pageType).Some?
    ensures var r := PublishVersion(s, pageId, number, baseSlug, generatorOf);
      var p := s.pages[pageId];
      && r.PublishedAs?
      && r.store.pages[pageId].currentVersion == number
      && StatusOf(r.store.pages[pageId]) ==
           Some(if number != 1 && p.currentVersion == number && p.versions[number].status == Published then Archived else Published)
      && !IsDraft(r.store.pages[pageId])
  {
  }

  /**
   * Republishing the published current version, other than version 1, leaves the page
   * pointing at an archived version and no version published.
   */
  lemma RepublishingCurrentArchivesIt(s: Store, pageId: nat, number: nat, baseSlug: string,
                                      generatorOf: string -> Option<Version -> string>)
    requires pageId in s.pages && number in s.pages[pageId].versions
    requires number != 1 && s.pages[pageId].currentVersion == number
    requires s.pages[pageId].versions[number].status == Published
    requires Lifecycle(s.pages[pageId])
    requires generatorOf(s.pages[pageId].pageType).Some?
    ensures var r := PublishVersion(s, pageId, number, baseSlug, generatorOf);
      var p' := r.store.pages[pageId];
      && r.PublishedAs?
      && p'.currentVersion == number
      && StatusOf(p') == Some(Archived)
      && forall n :: n in p'.versions ==> p'.versions[n].status != Published
  {
    var p := s.pages[pageId];
    var p' := PublishVersion(s, pageId, number, baseSlug, generatorOf).store.pages[pageId];
    forall n | n in p'.versions
      ensures p'.versions[n].status != Published
    {
      if n != number {
        assert p'.versions[n] == p.versions[n];
      }
    }
  }

  /** The intended publication always leaves the version published and current. */
  lemma IntendedPublishedIsCurrent(s: Store, pageId: nat, number: nat, baseSlug: string,
                                   generatorOf: string -> Option<Version -> string>)
    requires pageId in s.pages && number in s.pages[pageId].versions
    requires s.pages[pageId].currentVersion == number || CurrentVersion(s.pages[pageId]).Some?
    requires generatorOf(s.pages[pageId].pageType).Some?
    ensures var r := PublishVersionIntended(s, pageId, number, baseSlug, generatorOf);
      && r.PublishedAs?
      && r.store.pages[pageId].currentVersion == number
      && StatusOf(r.store.pages[pageId]) == Some(Published)
  {
  }

  /** Publishing a version other than 1 while another is current leaves that one archived. */
  lemma PublishArchivesPrevious(s: Store, pageId: nat, number: nat, baseSlug: string,
                                generatorOf: string -> Option<Version -> string>)
    requires pageId in s.pages && number in s.pages[pageId].versions
    requires number != 1 && CurrentVersion(s.pages[pageId]).Some?
    requires s.pages[pageId].currentVersion != number
    requires generatorOf(s.pages[pageId].pageType).Some?
    ensures var r := PublishVersion(s, pageId, number, baseSlug, generatorOf);
      var p' := r.store.pages[pageId];
      && r.PublishedAs?
      && p'.versions[s.pages[pageId].currentVersion].status == Archived
      && p'.versions[number].status == Published
      && p'.currentVersion == number
  {
  }

  // ---------------------------------------------------------------------------
  // createNewVersion
  // ---------------------------------------------------------------------------

  /** `m` is at least every element of `s`. */
  predicate Bounds(s: set<nat>, m: nat)
  {
    forall k :: k in s ==> k <= m
  }

  lemma {:induction false} MaxExists(s: set<nat>)
    requires s != {}
    ensures exists m :: m in s && Bounds(s, m)
    decreases |s|
  {
    var x :| x in s;
    var rest := s - {x};
    if rest == {} {
      assert s == {x};
      assert Bounds(s, x);
    } else {
      MaxExists(rest);
      var m :| m in rest && Bounds(rest, m);
      var top := if x > m then x else m;
      assert s == rest + {x};
      assert Bounds(s, top);
      assert top in s;
    }
  }

  /** The highest version number in use, 0 when there is none. */
  function MaxNumber(s: set<nat>): (m: nat)
    ensures forall k :: k in s ==> k <= m
    ensures s != {} ==> m in s
    ensures s == {} ==> m == 0
  {
    if s == {} then 0
    else
      MaxExists(s);
      var m :| m in s && Bounds(s, m);
      m
  }

  /** The current version's attributes, none when the current version is missing. */
  function CurrentAttributes(p: Page): seq<Attribute>
  {
    match CurrentVersion(p)
    case Some(c) => c.attributes
    case None => []
  }

  /** The outcome of `createNewVersion`; an aborted run may leave a partly written store behind. */
  datatype NewVersionOutcome = NewVersion(store: Store, number: nat) | Aborted(store: Store, error: RepoError)

  /**
   * What a successful `createNewVersion` leaves behind: only page `pageId` changes,
   * by one new version numbered one past the highest existing number. That version
   * is a draft by `user` with the current version's slug. For each attribute of the
   * schema `pt` it holds the data of the current version's attribute with the same
   * identifier ('' when there is none).
   */
  predicate OpenedDraft(s: Store, pageId: nat, user: nat, pt: PageType, resolveType: string -> string,
                        store: Store, number: nat)
    requires pageId in s.pages
  {
    && Valid(store)
    && SamePagesElsewhere(s, store, pageId)
    && number == MaxNumber(s.pages[pageId].versions.Keys) + 1
    && (forall n :: n in s.pages[pageId].versions ==> n < number)
    && var p, p' := s.pages[pageId], store.pages[pageId];
       && number in p'.versions
       && var v := p'.versions[number];
          && p' == p.(versions := p.versions[number := v])
          && v.number == number && v.status == Draft && v.createdBy == user && v.editedBy == user
          && (CurrentVersion(p).Some? ==> v.slug == CurrentVersion(p).value.slug)
          && |v.attributes| == |pt.attributes|
          && (forall i :: 0 <= i < |v.attributes| ==>
                && v.attributes[i].identifier == pt.attributes[i].identifier
                && v.attributes[i].attributeType == resolveType(pt.attributes[i].attributeType)
                && v.attributes[i].order == i + 1
                && v.attributes[i].data == DataByIdentifier(CurrentAttributes(p), pt.attributes[i].identifier))
  }

  /**
   * What `createNewVersion` leaves behind when the copy loop dereferences a missing
   * current version: the bare version row, numbered one past the highest existing
   * number, is already stored as a draft by `user` with no slug and no attributes.
   */
  predicate WroteBareVersion(s: Store, pageId: nat, user: nat, store: Store)
    requires pageId in s.pages
  {
    && SamePagesElsewhere(s, store, pageId)
    && store.nextAttributeId == s.nextAttributeId
    && var p, p' := s.pages[pageId], store.pages[pageId];
       && var n := MaxNumber(p.versions.Keys) + 1;
          && n !in p.versions
          && n in p'.versions
          && p' == p.(versions := p.versions[n := p'.versions[n]])
          && p'.versions[n].number == n && p'.versions[n].status == Draft
          && p'.versions[n].createdBy == user && p'.versions[n].editedBy == user
          && p'.versions[n].slug == "" && p'.versions[n].attributes == []
  }

  /**
   * `createNewVersion`. A missing page, or a missing current version while the
   * schema has attributes to copy, is a call on null; in the latter case the new
   * version row has already been written when the copy fails.
   */
  function CreateNewVersion(s: Store, pageId: nat, user: nat, types: Arr<PageType>, resolveType: string -> string): (r: NewVersionOutcome)
    requires Valid(s)
    ensures pageId !in s.pages ==> r == Aborted(s, NullReference("page"))
    ensures pageId in s.pages && Get(types, s.pages[pageId].pageType).None? ==> r == Aborted(s, PageTypeNotFound)
    ensures r.NewVersion? <==>
      pageId in s.pages && Get(types, s.pages[pageId].pageType).Some?
      && (CurrentVersion(s.pages[pageId]).Some? || |Get(types, s.pages[pageId].pageType).value.attributes| == 0)
    ensures r.NewVersion? ==>
      pageId in s.pages && Get(types, s.pages[pageId].pageType).Some?
      && OpenedDraft(s, pageId, user, Get(types, s.pages[pageId].pageType).value, resolveType, r.store, r.number)
    ensures pageId in s.pages && Get(types, s.pages[pageId].pageType).Some?
            && CurrentVersion(s.pages[pageId]).None? && |Get(types, s.pages[pageId].pageType).value.attributes| > 0
            ==> r.Aborted? && r.error == NullReference("current version") && WroteBareVersion(s, pageId, user, r.store)
  {
    if pageId !in s.pages then Aborted(s, NullReference("page"))
    else
      var p := s.pages[pageId];
      match Get(types, p.pageType)
      case None => Aborted(s, PageTypeNotFound)
      case Some(pt) =>
        if CurrentVersion(p).None? && |pt.attributes| > 0 then
          var bare := Version(MaxNumber(p.versions.Keys) + 1, Draft, "", user, user, []);
          assert bare.number !in p.versions;
          Aborted(s.(pages := s.pages[pageId := p.(versions := p.versions[bare.number := bare])]), NullReference("current version"))
        else
          AppendDraft(s, pageId, pt, user, resolveType)
  }

  /** The successful path of `createNewVersion`. */
  function AppendDraft(s: Store, pageId: nat, pt: PageType, user: nat, resolveType: string -> string): (r: NewVersionOutcome)
    requires Valid(s) && pageId in s.pages
    ensures r.NewVersion? && OpenedDraft(s, pageId, user, pt, resolveType, r.store, r.number)
  {
    var v := NewDraft(s.pages[pageId], pt, user, s.nextAttributeId, resolveType);
    var store := WithVersion(s, pageId, v, s.nextAttributeId + |pt.attributes|);
    assert store.pages[pageId].versions[v.number] == v;
    NewVersion(store, v.number)
  }

  /**
   * The draft `createNewVersion` writes: numbered past every existing version, with
   * the current version's slug and the content copied by identifier.
   */
  function NewDraft(p: Page, pt: PageType, user: nat, firstId: nat, resolveType: string -> string): (v: Version)
    ensures v.number == MaxNumber(p.versions.Keys) + 1 && v.number !in p.versions
    ensures v.status == Draft && v.createdBy == user && v.editedBy == user
    ensures CurrentVersion(p).Some? ==> v.slug == CurrentVersion(p).value.slug
    ensures |v.attributes| == |pt.attributes|
    ensures forall i :: 0 <= i < |v.attributes| ==>
              && v.attributes[i].identifier == pt.attributes[i].identifier
              && v.attributes[i].attributeType == resolveType(pt.attributes[i].attributeType)
              && v.attributes[i].order == i + 1
              && v.attributes[i].data == DataByIdentifier(CurrentAttributes(p), pt.attributes[i].identifier)
    ensures AttributeIdsBelow(v.attributes, firstId + |pt.attributes|)
  {
    var slug := match CurrentVersion(p) case Some(c) => c.slug case None => "";
    Version(MaxNumber(p.versions.Keys) + 1, Draft, slug, user, user,
            SeedAttributes(pt.attributes, firstId, resolveType, CurrentAttributes(p)))
  }

  /** The store with `v` added to a page under its own number, the attribute counter advanced. */
  function WithVersion(s: Store, pageId: nat, v: Version, nextAttributeId: nat): (r: Store)
    requires Valid(s) && pageId in s.pages
    requires s.nextAttributeId <= nextAttributeId && AttributeIdsBelow(v.attributes, nextAttributeId)
    ensures Valid(r)
    ensures r.nextPageId == s.nextPageId && r.pages.Keys == s.pages.Keys
    ensures forall id :: id in s.pages && id != pageId ==> r.pages[id] == s.pages[id]
    ensures r.pages[pageId] == s.pages[pageId].(versions := s.pages[pageId].versions[v.number := v])
  {
    var p := s.pages[pageId];
    var r := Store(s.pages[pageId := p.(versions := p.versions[v.number := v])], s.nextPageId, nextAttributeId);
    assert forall id :: id in r.pages ==>
      forall n :: n in r.pages[id].versions ==> AttributeIdsBelow(r.pages[id].versions[n].attributes, r.nextAttributeId);
    r
  }

  /** Version numbers are never reused, even after lower numbers were discarded. */
  lemma NewVersionNumberIsFresh(s: Store, pageId: nat, user: nat, types: Arr<PageType>, resolveType: string -> string, n: nat)
    requires Valid(s)
    requires pageId in s.pages && n in s.pages[pageId].versions
    ensures var r := CreateNewVersion(s, pageId, user, types, resolveType);
      r.NewVersion? ==> n < r.number && r.number >= |s.pages[pageId].versions|
  {
    var r := CreateNewVersion(s, pageId, user, types, resolveType);
    if r.NewVersion? {
      var ks := s.pages[pageId].versions.Keys;
      KeysBelowBound(ks, r.number);
    }
  }

  /** A set of naturals all below `b` has at most `b` elements. */
  lemma {:induction false} KeysBelowBound(ks: set<nat>, b: nat)
    requires forall k :: k in ks ==> k < b
    ensures |ks| <= b
    decreases b
  {
    if b > 0 {
      var rest := ks - {b - 1};
      KeysBelowBound(rest, b - 1);
      assert ks <= rest + {b - 1};
    } else {
      assert ks == {};
    }
  }

  /** The new version never changes which version is current, so the invariant holds on. */
  lemma NewVersionKeepsLifecycle(s: Store, pageId: nat, user: nat, types: Arr<PageType>, resolveType: string -> string)
    requires Valid(s) && AllLifecycle(s)
    ensures var r := CreateNewVersion(s, pageId, user, types, resolveType);
      r.NewVersion? ==> AllLifecycle(r.store)
  {
    var r := CreateNewVersion(s, pageId, user, types, resolveType);
    if r.NewVersion? {
      var p := s.pages[pageId];
      var v := r.store.pages[pageId].versions[r.number];
      AddDraftLifecycle(p, r.number, v);
      assert r.store.pages == s.pages[pageId := p.(versions := p.versions[r.number := v])];
    }
  }

  /** Adding a draft above every existing number keeps a page's lifecycle invariant. */
  lemma AddDraftLifecycle(p: Page, number: nat, v: Version)
    requires Lifecycle(p) && v.status == Draft
    requires forall n :: n in p.versions ==> n < number
    ensures Lifecycle(p.(versions := p.versions[number := v]))
  {
    var n :| n in p.versions;
    assert number != 1 by {
      assert n < number;
    }
  }

  /**
   * When the current version's attributes follow the page type's schema (same
   * identifiers, in order, each once), the new draft starts with the current content.
   */
  lemma NewVersionCopiesContent(s: Store, pageId: nat, user: nat, types: Arr<PageType>, resolveType: string -> string)
    requires Valid(s) && pageId in s.pages
    requires Get(types, s.pages[pageId].pageType).Some? && CurrentVersion(s.pages[pageId]).Some?
    requires var cur := CurrentVersion(s.pages[pageId]).value.attributes;
      var schema := Get(types, s.pages[pageId].pageType).value.attributes;
      && |cur| == |schema|
      && (forall i :: 0 <= i < |cur| ==> cur[i].identifier == schema[i].identifier)
      && (forall i, j :: 0 <= i < j < |cur| ==> cur[i].identifier != cur[j].identifier)
    ensures var r := CreateNewVersion(s, pageId, user, types, resolveType);
      var cur := CurrentVersion(s.pages[pageId]).value.attributes;
      && r.NewVersion?
      && forall i :: 0 <= i < |cur| ==> r.store.pages[pageId].versions[r.number].attributes[i].data == cur[i].data
  {
  }

  /**
   * Publishing version 2 of a page whose only version, 1, is published: the new
   * draft gets number 2, and publishing it archives 1 and makes 2 current.
   */
  lemma SecondVersionReplacesFirst(s: Store, pageId: nat, user: nat, types: Arr<PageType>, resolveType: string -> string,
                                   baseSlug: string, generatorOf: string -> Option<Version -> string>)
    requires Valid(s) && pageId in s.pages && Get(types, s.pages[pageId].pageType).Some?
    requires s.pages[pageId].versions.Keys == {1} && s.pages[pageId].currentVersion == 1
    requires s.pages[pageId].versions[1].status == Published
    requires generatorOf(s.pages[pageId].pageType).Some?
    ensures var nv := CreateNewVersion(s, pageId, user, types, resolveType);
      && nv.NewVersion? && nv.number == 2
      && var r := PublishVersion(nv.store, pageId, 2, baseSlug, generatorOf);
         && r.PublishedAs?
         && r.store.pages[pageId].versions[1].status == Archived
         && r.store.pages[pageId].versions[2].status == Published
         && r.store.pages[pageId].currentVersion == 2
  {
    var p := s.pages[pageId];
    assert MaxNumber(p.versions.Keys) == 1;
    assert CurrentVersion(p).Some?;
    var nv := CreateNewVersion(s, pageId, user, types, resolveType);
    assert nv.store.pages[pageId].currentVersion == 1;
    assert nv.store.pages[pageId].pageType == p.pageType;
    assert CurrentVersion(nv.store.pages[pageId]).Some?;
  }

}

=== FILE: pages_provider.dfy ===
/**
 * The decisions of the pages module provider that do not render anything: the
 * permission check, the page types offered for a new sub-page, the page type
 * lookups, the choice of a layout for a version, and resolving a location from a
 * URL path.
 */
module PagesProvider {
  import opened Wrappers
  import opened PhpStrings
  import opened PhpArray
  import opened PageModel
  import opened Access

  /**
   * One module's entry in a user's permission array: the flat permission names
   * plus the optional `allowed_paths` and `page_types` lists stored beside them.
   */
  datatype ModulePermissions = ModulePermissions(
    names: seq<string>,
    allowedPaths: Option<seq<string>>,
    pageTypes: Option<seq<string>>)

  /** A location row as the permission check sees it. */
  datatype Location = Location(id: nat, path: string)

  /** The optional `page_location_id` and `page_type` parameters of a check. */
  datatype AccessParameters = AccessParameters(pageLocationId: Option<int>, pageType: Option<string>)

  datatype ProviderError = PageTypeNotFound

  const LocationDenied: string := "Your are not allowed access to this location"
  const ModuleDenied: string := "Access denied by pages module: "
  const PageTypeDenied: string := "Access denied by pages module for page type: "

  // ---------------------------------------------------------------------------
  // Path check
  // ---------------------------------------------------------------------------

  /**
   * One entry of `allowed_paths` lets the location through: a non-empty entry that
   * is a prefix of the location's sub-tree prefix, or, for `view` only, one that
   * lies below it.
   */
  predicate PathAllows(permission: string, allowed: string, locationPath: string)
  {
    allowed != "" && (allowed <= locationPath || (permission == "view" && locationPath <= allowed))
  }

  /** The loop over `allowed_paths`. */
  function AnyPathAllows(permission: string, allowed: seq<string>, locationPath: string): (b: bool)
    ensures b <==> exists i :: 0 <= i < |allowed| && PathAllows(permission, allowed[i], locationPath)
  {
    if |allowed| == 0 then false
    else PathAllows(permission, allowed[0], locationPath) || AnyPathAllows(permission, allowed[1..], locationPath)
  }

  /** Whether a non-empty `allowed_paths` list exists, so that the path check runs. */
  predicate PathRestricted(perms: ModulePermissions)
  {
    perms.allowedPaths.Some? && |perms.allowedPaths.value| > 0
  }

  /**
   * The path check: it only rejects when the list is non-empty, a location id is
   * given, and that location resolves.
   */
  function PathCheckPasses(permission: string, params: AccessParameters, perms: ModulePermissions,
                           getLocation: int -> Option<Location>): (b: bool)
    ensures !b <==> PathRestricted(perms) && params.pageLocationId.Some?
                    && getLocation(params.pageLocationId.value).Some?
                    && forall i :: 0 <= i < |perms.allowedPaths.value| ==>
                         !PathAllows(permission, perms.allowedPaths.value[i],
                                     SubtreePrefix(getLocation(params.pageLocationId.value).value.path,
                                                   getLocation(params.pageLocationId.value).value.id))
  {
    if !PathRestricted(perms) || params.pageLocationId.None? then true
    else
      match getLocation(params.pageLocationId.value)
      case None => true
      case Some(loc) => AnyPathAllows(permission, perms.allowedPaths.value, SubtreePrefix(loc.path, loc.id))
  }

  /**
   * On well-formed paths the path test is the ancestor order: an allowed entry
   * naming page `a` lets through `a` and everything below it, and, for `view`, also
   * every ancestor of `a` so that the tree can be walked down to it.
   */
  lemma PathCheckOnTree(permission: string, allowed: seq<nat>, ancestors: seq<nat>, loc: Location)
    requires |allowed| > 0
    requires loc.path == MaterializedPath(ancestors)
    ensures PathAllows(permission, MaterializedPath(allowed), SubtreePrefix(loc.path, loc.id))
            <==> allowed <= ancestors + [loc.id] || (permission == "view" && ancestors + [loc.id] <= allowed)
  {
    ChildPath(ancestors, loc.id);
    MaterializedPrefix(allowed, ancestors + [loc.id]);
    MaterializedPrefix(ancestors + [loc.id], allowed);
    assert |MaterializedPath(allowed)| > 0;
  }

  // ---------------------------------------------------------------------------
  // checkAccess
  // ---------------------------------------------------------------------------

  /** `create` brings `edit` with it. */
  function Effective(names: seq<string>): (r: seq<string>)
    ensures forall n :: n in r <==> n in names || (n == "edit" && "create" in names)
  {
    if "create" in names && "edit" !in names then names + ["edit"] else names
  }

  /** The page type restriction applies and the requested type is not in it. */
  predicate TypeBlocked(permission: string, params: AccessParameters, perms: ModulePermissions)
  {
    (permission == "create" || permission == "edit" || permission == "remove")
    && perms.pageTypes.Some? && |perms.pageTypes.value| > 0
    && params.pageType.Some? && params.pageType.value !in perms.pageTypes.value
  }

  /** `checkAccess` of the pages module for the user's `pages` permission entry. */
  function CheckAccess(permission: string, params: AccessParameters, perms: ModulePermissions,
                       getLocation: int -> Option<Location>): (r: Access)
    ensures r == Granted <==>
              PathCheckPasses(permission, params, perms, getLocation)
              && ("*" in perms.names || permission == "view"
                  || ((permission in perms.names || (permission == "edit" && "create" in perms.names))
                      && !TypeBlocked(permission, params, perms)))
    ensures !PathCheckPasses(permission, params, perms, getLocation) ==> r == Denied(LocationDenied)
    ensures r.Denied? ==> r.message == LocationDenied || r.message == ModuleDenied + permission
                          || (params.pageType.Some? && r.message == PageTypeDenied + params.pageType.value)
  {
    if !PathCheckPasses(permission, params, perms, getLocation) then Denied(LocationDenied)
    else if "*" in perms.names then Granted
    else if permission == "view" then Granted
    else if permission !in Effective(perms.names) then Denied(ModuleDenied + permission)
    else if TypeBlocked(permission, params, perms) then Denied(PageTypeDenied + params.pageType.value)
    else Granted
  }

  /** Whoever may create a page may also edit it, under the same parameters. */
  lemma CreateGrantsEdit(params: AccessParameters, perms: ModulePermissions, getLocation: int -> Option<Location>)
    requires CheckAccess("create", params, perms, getLocation) == Granted
    ensures CheckAccess("edit", params, perms, getLocation) == Granted
  {
    assert PathCheckPasses("create", params, perms, getLocation) == PathCheckPasses("edit", params, perms, getLocation) by {
      if PathRestricted(perms) && params.pageLocationId.Some? {
        match getLocation(params.pageLocationId.value)
        case None =>
        case Some(loc) =>
          var lp := SubtreePrefix(loc.path, loc.id);
          forall a | a in perms.allowedPaths.value
            ensures PathAllows("create", a, lp) == PathAllows("edit", a, lp)
          {
          }
      }
    }
  }

  // ---------------------------------------------------------------------------
  // availablePageTypes
  // ---------------------------------------------------------------------------

  /** Copy into `acc`, in the order of `keys`, every key of `keys` that `source` holds. */
  function NarrowInto<V>(acc: Arr<V>, source: Arr<V>, keys: seq<string>): (r: Arr<V>)
    ensures forall k :: Get(r, k) == if k in keys && Get(source, k).Some? then Get(source, k) else Get(acc, k)
    decreases |keys|
  {
    if |keys| == 0 then acc
    else
      var k := keys[0];
      var acc' := match Get(source, k) case Some(v) => Put(acc, k, v) case None => acc;
      NarrowInto(acc', source, keys[1..])
  }

  /** The entries of `source` whose key is listed in `keys`. */
  function Narrow<V>(source: Arr<V>, keys: seq<string>): (r: Arr<V>)
    ensures forall k :: Get(r, k) == if k in keys then Get(source, k) else None
  {
    NarrowInto([], source, keys)
  }

  /**
   * A narrowed array holds nothing the source does not: every key it has is in the
   * source with the same value, and in the list.
   */
  lemma NarrowSubset<V>(source: Arr<V>, keys: seq<string>, k: string)
    requires k in Keys(Narrow(source, keys))
    ensures k in keys && k in Keys(source)
    ensures Get(Narrow(source, keys), k) == Get(source, k)
  {
    var r := Narrow(source, keys);
    assert Get(r, k).Some?;
  }

  /** The permissions of every module for the current user. */
  type UserPermissions = map<string, ModulePermissions>

  /** `everything` holds `*`. */
  predicate Superuser(user: UserPermissions)
  {
    "everything" in user && "*" in user["everything"].names
  }

  /** The registry narrowed to the parent page type's allowed sub-page types, when it lists any. */
  function OfferedUnder(registry: Arr<PageType>, parentAllowed: Option<seq<string>>): (r: Arr<PageType>)
    ensures parentAllowed.Some? && |parentAllowed.value| > 0 ==>
              forall k :: Get(r, k) == if k in parentAllowed.value then Get(registry, k) else None
    ensures parentAllowed.None? || |parentAllowed.value| == 0 ==> r == registry
  {
    if parentAllowed.Some? && |parentAllowed.value| > 0 then Narrow(registry, parentAllowed.value) else registry
  }

  /**
   * The page types the current user may create under a page whose type allows
   * `parentAllowed` (none when creating at the top level), once that type is resolved.
   */
  function TypesOffered(registry: Arr<PageType>, parentAllowed: Option<seq<string>>,
                        user: UserPermissions): (r: Arr<PageType>)
    ensures forall k :: Get(r, k).Some? ==> Get(r, k) == Get(registry, k)
    ensures Superuser(user) ==> r == OfferedUnder(registry, parentAllowed)
    ensures !Superuser(user) && "pages" in user && "*" in user["pages"].names ==> r == registry
    ensures !Superuser(user) && ("pages" !in user || ("*" !in user["pages"].names && "create" !in user["pages"].names))
            ==> r == []
    ensures !Superuser(user) && "pages" in user && "*" !in user["pages"].names && "create" in user["pages"].names
            ==> forall k :: Get(r, k).Some? <==>
                  Get(OfferedUnder(registry, parentAllowed), k).Some?
                  && (user["pages"].pageTypes.Some? ==> k in user["pages"].pageTypes.value)
  {
    var offered := OfferedUnder(registry, parentAllowed);
    if Superuser(user) then offered
    else if "pages" in user then
      var pages := user["pages"];
      if "*" in pages.names then registry
      else if "create" in pages.names then
        if pages.pageTypes.Some? then Narrow(offered, pages.pageTypes.value) else offered
      else []
    else []
  }

  /**
   * Without a wildcard, every type offered is one the parent allows (when it lists
   * any) and one the creator is restricted to (when restricted).
   */
  lemma OfferedTypesRespectRestrictions(registry: Arr<PageType>, parentAllowed: Option<seq<string>>,
                                        user: UserPermissions, k: string)
    requires !("pages" in user && "*" in user["pages"].names)
    requires k in Keys(TypesOffered(registry, parentAllowed, user))
    ensures parentAllowed.Some? && |parentAllowed.value| > 0 ==> k in parentAllowed.value
    ensures !Superuser(user) && user["pages"].pageTypes.Some? ==> k in user["pages"].pageTypes.value
  {
    var r := TypesOffered(registry, parentAllowed, user);
    assert Get(r, k).Some?;
  }

  // ---------------------------------------------------------------------------
  // getPageType / getHomePageType
  // ---------------------------------------------------------------------------

  /** `getPageType` and `getHomePageType`: a registered type, or `PageTypeNotFound`. */
  function LookupPageType(registry: Arr<PageType>, identifier: string): (r: Result<PageType, ProviderError>)
    ensures r.Err? <==> identifier !in Keys(registry)
    ensures r.Ok? ==> exists i :: 0 <= i < |registry| && registry[i] == (identifier, r.value)
    ensures r.Ok? ==> Get(registry, identifier) == Some(r.value)
  {
    match Get(registry, identifier)
    case Some(t) => Ok(t)
    case None => Err(PageTypeNotFound)
  }

  /**
   * `availablePageTypes`. Given a parent page (`parentType` names its type), the
   * parent's type is looked up first, which fails with `PageTypeNotFound` when it is
   * not registered. Otherwise the offer is `TypesOffered` under the sub-page types
   * that type allows.
   */
  function AvailablePageTypes(registry: Arr<PageType>, parentType: Option<string>,
                              user: UserPermissions): (r: Result<Arr<PageType>, ProviderError>)
    ensures r.Err? <==> parentType.Some? && parentType.value !in Keys(registry)
    ensures r.Ok? ==> forall k :: Get(r.value, k).Some? ==> Get(r.value, k) == Get(registry, k)
    ensures r.Ok? && parentType.None? ==> r.value == TypesOffered(registry, None, user)
    ensures r.Ok? && parentType.Some? ==>
              exists i :: 0 <= i < |registry| && registry[i].0 == parentType.value
                && r.value == TypesOffered(registry, Some(registry[i].1.allowedSubPageTypes), user)
  {
    match parentType
    case None => Ok(TypesOffered(registry, None, user))
    case Some(id) =>
      match LookupPageType(registry, id)
      case Err(e) => Err(e)
      case Ok(t) => Ok(TypesOffered(registry, Some(t.allowedSubPageTypes), user))
  }

  // ---------------------------------------------------------------------------
  // getLayout
  // ---------------------------------------------------------------------------

  /** An optional string that is set and truthy. */
  predicate Named(s: Option<string>)
  {
    s.Some? && Truthy(s.value)
  }

  /** The version names a layout that exists. */
  predicate UsableLayout<L>(versionLayout: Option<string>, layoutByIdentifier: string -> Option<L>)
  {
    Named(versionLayout) && layoutByIdentifier(versionLayout.value).Some?
  }

  /**
   * `getLayout`: the version's own layout when it names one that exists. Failing
   * that, the type of the version's page (`pageType`) is looked up, which fails with
   * `PageTypeNotFound` when it is not registered. Its default layout wins when that
   * exists, and the layout module's default otherwise.
   */
  function GetLayout<L>(versionLayout: Option<string>, registry: Arr<PageType>, pageType: string,
                        layoutByIdentifier: string -> Option<L>, moduleDefault: L): (r: Result<L, ProviderError>)
    ensures r.Err? <==> !UsableLayout(versionLayout, layoutByIdentifier) && pageType !in Keys(registry)
    ensures UsableLayout(versionLayout, layoutByIdentifier) ==> r == Ok(layoutByIdentifier(versionLayout.value).value)
    ensures !UsableLayout(versionLayout, layoutByIdentifier) && pageType in Keys(registry) ==>
              var typeDefault := Get(registry, pageType).value.defaultLayout;
              r == Ok(if UsableLayout(typeDefault, layoutByIdentifier) then layoutByIdentifier(typeDefault.value).value
                      else moduleDefault)
    ensures r.Ok? && r.value != moduleDefault ==>
              (Named(versionLayout) && layoutByIdentifier(versionLayout.value) == Some(r.value))
              || exists i :: 0 <= i < |registry| && registry[i].0 == pageType
                   && Named(registry[i].1.defaultLayout) && layoutByIdentifier(registry[i].1.defaultLayout.value) == Some(r.value)
  {
    if UsableLayout(versionLayout, layoutByIdentifier) then Ok(layoutByIdentifier(versionLayout.value).value)
    else
      match LookupPageType(registry, pageType)
      case Err(e) => Err(e)
      case Ok(t) =>
        if UsableLayout(t.defaultLayout, layoutByIdentifier) then Ok(layoutByIdentifier(t.defaultLayout.value).value)
        else Ok(moduleDefault)
  }

  /**
   * The page's type is not consulted when the version names a usable layout: the
   * result is the same under any registry and type, registered or not.
   */
  lemma TypeDefaultIsFallback<L>(versionLayout: Option<string>, registry: Arr<PageType>, pageType: string,
                                 otherRegistry: Arr<PageType>, otherType: string,
                                 layoutByIdentifier: string -> Option<L>, moduleDefault: L)
    requires UsableLayout(versionLayout, layoutByIdentifier)
    ensures GetLayout(versionLayout, registry, pageType, layoutByIdentifier, moduleDefault)
            == GetLayout(versionLayout, otherRegistry, otherType, layoutByIdentifier, moduleDefault)
    ensures GetLayout(versionLayout, registry, pageType, layoutByIdentifier, moduleDefault).Ok?
  {
  }

  // ---------------------------------------------------------------------------
  // locationByPath
  // ---------------------------------------------------------------------------

  /** The last '/'-separated piece of a path with its outer slashes trimmed. */
  function LastSegment(path: string): (seg: string)
    ensures '/' !in seg
    ensures var t := Trim(path, '/');
      && |seg| <= |t| && t[|t| - |seg|..] == seg
      && (|seg| < |t| ==> t[|t| - |seg| - 1] == '/')
  {
    var parts := Split(Trim(path, '/'), '/');
    SplitLast(Trim(path, '/'), '/');
    parts[|parts| - 1]
  }

  /**
   * `locationByPath`: the location whose id is the `(int)` value of the path's last
   * segment, when one is stored under that id.
   */
  function LocationByPath<L>(path: string, locationById: int -> Option<L>): (r: Option<L>)
    ensures r.Some? <==> locationById(IntCast(LastSegment(path))).Some?
  {
    locationById(IntCast(LastSegment(path)))
  }

  /** `implode` of pieces that do not start or end with the separator neither does. */
  lemma JoinEnds(parts: seq<string>, c: char)
    requires |parts| >= 1 && |parts[0]| > 0 && |parts[|parts| - 1]| > 0
    requires parts[0][0] != c && parts[|parts| - 1][|parts[|parts| - 1]| - 1] != c
    ensures |Join(parts, c)| > 0
    ensures Join(parts, c)[0] != c && Join(parts, c)[|Join(parts, c)| - 1] != c
  {
    var j := Join(parts, c);
    if |parts| > 1 {
      assert j[..|parts[0]|] == parts[0];
      var init := parts[..|parts| - 1];
      assert parts == init + [parts[|parts| - 1]];
      JoinSnoc(init, c, parts[|parts| - 1]);
    }
  }

  /** Resolving a page's own sub-tree prefix finds the page itself. */
  lemma {:induction false} LocationByOwnPath<L>(ids: seq<nat>, locationById: int -> Option<L>)
    requires |ids| > 0
    ensures LocationByPath(MaterializedPath(ids), locationById) == locationById(ids[|ids| - 1])
  {
    var ds := Digits(ids);
    var last := |ds| - 1;
    assert AllDigits(ds[0]) && AllDigits(ds[last]);
    var j := Join(ds, '/');
    TerminatedIsJoin(ds);
    JoinSnoc(ds, '/', "");
    assert MaterializedPath(ids) == ['/'] + j + ['/'];
    JoinEnds(ds, '/');
    TrimFramed(j, '/');
    DigitsHaveNoSlash(ids);
    SplitJoin(ds, '/');
    assert LastSegment(MaterializedPath(ids)) == NatToString(ids[last]);
    IntCastNatToString(ids[last]);
  }
}

=== FILE: php_array.dfy ===
/**
 * PHP's ordered associative arrays with string keys, as a sequence of key/value
 * pairs in insertion order. Writing an existing key replaces its value in place;
 * writing a new key appends it.
 */
module PhpArray {
  import opened Wrappers

  type Arr<V> = seq<(string, V)>

  function Keys<V>(a: Arr<V>): (ks: seq<string>)
    ensures |ks| == |a|
    ensures forall i :: 0 <= i < |a| ==> ks[i] == a[i].0
  {
    if |a| == 0 then [] else [a[0].0] + Keys(a[1..])
  }

  /** Every key occurs once, as in every PHP array. */
  predicate DistinctKeys<V>(a: Arr<V>)
  {
    forall i, j :: 0 <= i < j < |a| ==> a[i].0 != a[j].0
  }

  /** `$a[$k]` (with `isset`): the value stored under `k`, if any. */
  function Get<V>(a: Arr<V>, k: string): (r: Option<V>)
    ensures r.None? <==> k !in Keys(a)
    ensures r.Some? ==> exists i :: 0 <= i < |a| && a[i] == (k, r.value)
  {
    if |a| == 0 then None
    else if a[0].0 == k then Some(a[0].1)
    else
      var r := Get(a[1..], k);
      assert Keys(a) == [a[0].0] + Keys(a[1..]);
      assert r.Some? ==> exists i :: 0 <= i < |a[1..]| && a[1..][i] == (k, r.value);
      r
  }

  lemma GetCons<V>(p: (string, V), rest: Arr<V>, k: string)
    ensures Get([p] + rest, k) == if p.0 == k then Some(p.1) else Get(rest, k)
  {
    assert ([p] + rest)[1..] == rest;
  }

  lemma KeysCons<V>(p: (string, V), rest: Arr<V>)
    ensures Keys([p] + rest) == [p.0] + Keys(rest)
  {
    assert ([p] + rest)[1..] == rest;
  }

  /** `$a[$k] = $v`. */
  function Put<V>(a: Arr<V>, k: string, v: V): (r: Arr<V>)
    ensures Get(r, k) == Some(v)
    ensures forall k' :: k' != k ==> Get(r, k') == Get(a, k')
    ensures k in Keys(a) ==> Keys(r) == Keys(a)
    ensures k !in Keys(a) ==> Keys(r) == Keys(a) + [k]
  {
    if |a| == 0 then [(k, v)]
    else if a[0].0 == k then
      var r := [(k, v)] + a[1..];
      KeysCons((k, v), a[1..]);
      KeysCons(a[0], a[1..]);
      assert a == [a[0]] + a[1..];
      assert forall k' :: k' != k ==> Get(r, k') == Get(a, k') by {
        forall k' | k' != k
          ensures Get(r, k') == Get(a, k')
        {
          GetCons((k, v), a[1..], k');
          GetCons(a[0], a[1..], k');
        }
      }
      r
    else
      var rest := Put(a[1..], k, v);
      var r := [a[0]] + rest;
      KeysCons(a[0], rest);
      KeysCons(a[0], a[1..]);
      assert a == [a[0]] + a[1..];
      GetCons(a[0], rest, k);
      assert forall k' :: k' != k ==> Get(r, k') == Get(a, k') by {
        forall k' | k' != k
          ensures Get(r, k') == Get(a, k')
        {
          GetCons(a[0], rest, k');
          GetCons(a[0], a[1..], k');
        }
      }
      r
  }

  /** Writing into an array with distinct keys keeps its keys distinct. */
  lemma PutKeepsDistinct<V>(a: Arr<V>, k: string, v: V)
    requires DistinctKeys(a)
    ensures DistinctKeys(Put(a, k, v))
  {
    var r := Put(a, k, v);
    var ks := Keys(a);
    var rs := Keys(r);
    assert forall i, j :: 0 <= i < j < |ks| ==> ks[i] != ks[j];
    assert forall i, j :: 0 <= i < j < |rs| ==> rs[i] != rs[j];
  }
}

=== FILE: php_strings.dfy ===
/**
 * The PHP string primitives the modelled code relies on, restated over `seq<char>`:
 * `strpos` for one character, `explode` / `implode` with a one-character separator,
 * `trim` with a one-character list, the `(int)` cast, `ucfirst`, the decimal rendering
 * of an integer (string concatenation of an int), and string truthiness.
 */
module PhpStrings {
  import opened Wrappers

  /** `strpos($s, $c)`: the index of the first occurrence of `c`, or none. */
  function IndexOf(s: string, c: char): (r: Option<nat>)
    ensures r.None? <==> c !in s
    ensures r.Some? ==> r.value < |s| && s[r.value] == c && c !in s[..r.value]
  {
    if |s| == 0 then None
    else if s[0] == c then Some(0)
    else
      match IndexOf(s[1..], c)
      case None => None
      case Some(i) =>
        assert s[..i + 1] == [s[0]] + s[1..][..i];
        Some(i + 1)
  }

  /** `explode($c, $s)`: the pieces between occurrences of `c`, empty pieces included. */
  function Split(s: string, c: char): (parts: seq<string>)
    ensures |parts| >= 1
    ensures forall k :: 0 <= k < |parts| ==> c !in parts[k]
    decreases |s|
  {
    match IndexOf(s, c)
    case None => [s]
    case Some(i) => [s[..i]] + Split(s[i + 1..], c)
  }

  /** `t` is a suffix of `s` that starts at the front of `s` or just after a `c`. */
  predicate SuffixAfter(s: string, t: string, c: char)
  {
    |t| <= |s| && s[|s| - |t|..] == t && (|t| < |s| ==> s[|s| - |t| - 1] == c)
  }

  /** The last piece of `explode` is a suffix of the string, starting at its front or just after a separator. */
  lemma {:induction false} SplitLast(s: string, c: char)
    ensures SuffixAfter(s, Split(s, c)[|Split(s, c)| - 1], c)
    decreases |s|
  {
    match IndexOf(s, c)
    case None =>
    case Some(i) =>
      var rest := s[i + 1..];
      var parts := Split(rest, c);
      SplitLast(rest, c);
      assert Split(s, c) == [s[..i]] + parts;
      var last := parts[|parts| - 1];
      assert Split(s, c)[|Split(s, c)| - 1] == last;
      var k := |rest| - |last|;
      assert rest[k..] == last;
      assert s[i + 1 + k..] == rest[k..];
      assert |s| - |last| == i + 1 + k;
      if k == 0 {
        assert s[|s| - |last| - 1] == s[i];
      } else {
        assert s[|s| - |last| - 1] == rest[k - 1];
      }
  }

  /** `implode($c, $parts)`. */
  function Join(parts: seq<string>, c: char): string
  {
    if |parts| == 0 then ""
    else if |parts| == 1 then parts[0]
    else parts[0] + [c] + Join(parts[1..], c)
  }

  /** The first separator of `x + [c] + y` is the one after `x` when `x` has none. */
  lemma IndexOfAfter(x: string, c: char, y: string)
    requires c !in x
    ensures IndexOf(x + [c] + y, c) == Some(|x|)
  {
    var s := x + [c] + y;
    assert s[|x|] == c;
    assert s[..|x|] == x;
  }

  /** Appending a piece to a non-empty list appends a separator and the piece. */
  lemma {:induction false} JoinSnoc(parts: seq<string>, c: char, x: string)
    requires |parts| >= 1
    ensures Join(parts + [x], c) == Join(parts, c) + [c] + x
    decreases |parts|
  {
    if |parts| == 1 {
      assert parts + [x] == [parts[0], x];
      assert (parts + [x])[1..] == [x];
    } else {
      assert (parts + [x])[1..] == parts[1..] + [x];
      JoinSnoc(parts[1..], c, x);
    }
  }

  /** `explode` undoes `implode` when no piece holds the separator. */
  lemma {:induction false} SplitJoin(parts: seq<string>, c: char)
    requires |parts| >= 1
    requires forall k :: 0 <= k < |parts| ==> c !in parts[k]
    ensures Split(Join(parts, c), c) == parts
    decreases |parts|
  {
    if |parts| == 1 {
    } else {
      var rest := Join(parts[1..], c);
      IndexOfAfter(parts[0], c, rest);
      var s := parts[0] + [c] + rest;
      assert s[..|parts[0]|] == parts[0];
      assert s[|parts[0]| + 1..] == rest;
      SplitJoin(parts[1..], c);
    }
  }

  /** `implode` undoes `explode`. */
  lemma {:induction false} JoinSplit(s: string, c: char)
    ensures Join(Split(s, c), c) == s
    decreases |s|
  {
    match IndexOf(s, c)
    case None =>
    case Some(i) =>
      var rest := s[i + 1..];
      var parts := Split(rest, c);
      assert Split(s, c) == [s[..i]] + parts;
      assert ([s[..i]] + parts)[1..] == parts;
      assert Join([s[..i]] + parts, c) == s[..i] + [c] + Join(parts, c);
      JoinSplit(rest, c);
      assert s == s[..i] + [c] + rest;
  }

  /** `ltrim($s, $c)`. */
  function TrimLeft(s: string, c: char): (r: string)
    ensures |r| <= |s| && r == s[|s| - |r|..]
    ensures forall i :: 0 <= i < |s| - |r| ==> s[i] == c
    ensures |r| > 0 ==> r[0] != c
  {
    if |s| > 0 && s[0] == c then TrimLeft(s[1..], c) else s
  }

  /** `rtrim($s, $c)`. */
  function TrimRight(s: string, c: char): (r: string)
    ensures |r| <= |s| && r == s[..|r|]
    ensures forall i :: |r| <= i < |s| ==> s[i] == c
    ensures |r| > 0 ==> r[|r| - 1] != c
  {
    if |s| > 0 && s[|s| - 1] == c then TrimRight(s[..|s| - 1], c) else s
  }

  /** `trim($s, $c)`: strips `c` from both ends. */
  function Trim(s: string, c: char): string
  {
    TrimRight(TrimLeft(s, c), c)
  }

  /** Trimming a string framed by one separator on each side yields the inside. */
  lemma TrimFramed(x: string, c: char)
    requires |x| > 0 && x[0] != c && x[|x| - 1] != c
    ensures Trim([c] + x + [c], c) == x
  {
    var s := [c] + x + [c];
    assert s[1..] == x + [c];
    assert TrimLeft(x + [c], c) == x + [c];
    assert (x + [c])[..|x|] == x;
  }

  predicate IsDigit(ch: char)
  {
    '0' <= ch <= '9'
  }

  predicate AllDigits(s: string)
  {
    forall i :: 0 <= i < |s| ==> IsDigit(s[i])
  }

  function DigitValue(ch: char): nat
    requires IsDigit(ch)
  {
    ch as int - '0' as int
  }

  function DigitChar(d: nat): (ch: char)
    requires d < 10
    ensures IsDigit(ch) && DigitValue(ch) == d
  {
    ('0' as int + d) as char
  }

  /** The decimal rendering PHP produces when an integer is concatenated to a string. */
  function NatToString(n: nat): (s: string)
    ensures |s| >= 1 && AllDigits(s)
  {
    if n < 10 then [DigitChar(n)] else NatToString(n / 10) + [DigitChar(n % 10)]
  }

  /** The value of a run of decimal digits. */
  function DigitsValue(s: string): nat
    requires AllDigits(s)
  {
    if |s| == 0 then 0 else DigitsValue(s[..|s| - 1]) * 10 + DigitValue(s[|s| - 1])
  }

  /** The longest prefix of `s` made of decimal digits. */
  function LeadingDigits(s: string): (d: string)
    ensures d <= s && AllDigits(d)
    ensures |d| < |s| ==> !IsDigit(s[|d|])
  {
    if |s| > 0 && IsDigit(s[0]) then [s[0]] + LeadingDigits(s[1..]) else ""
  }

  predicate IsSpace(ch: char)
  {
    ch == ' ' || ch == '\t' || ch == '\n' || ch == '\r' || ch == '\U{B}' || ch == '\U{C}'
  }

  function SkipSpace(s: string): (r: string)
    ensures |r| <= |s| && r == s[|s| - |r|..]
    ensures |r| > 0 ==> !IsSpace(r[0])
  {
    if |s| > 0 && IsSpace(s[0]) then SkipSpace(s[1..]) else s
  }

  /**
   * The `(int)` cast of a string: leading white space, an optional sign, then the
   * longest run of decimal digits; anything from the first other character on is
   * ignored, and a string with no leading digits casts to 0.
   */
  function IntCast(s: string): int
  {
    var t := SkipSpace(s);
    if |t| > 0 && t[0] == '-' then 0 - DigitsValue(LeadingDigits(t[1..])) as int
    else if |t| > 0 && t[0] == '+' then DigitsValue(LeadingDigits(t[1..]))
    else DigitsValue(LeadingDigits(t))
  }

  lemma {:induction false} DigitsValueOfNatToString(n: nat)
    ensures DigitsValue(NatToString(n)) == n
    decreases n
  {
    var s := NatToString(n);
    if n >= 10 {
      DigitsValueOfNatToString(n / 10);
      assert s[..|s| - 1] == NatToString(n / 10);
    }
  }

  lemma {:induction false} LeadingDigitsOfDigits(s: string)
    requires AllDigits(s)
    ensures LeadingDigits(s) == s
    decreases |s|
  {
    if |s| > 0 {
      LeadingDigitsOfDigits(s[1..]);
    }
  }

  /** The `(int)` cast reads back the decimal rendering of a natural number. */
  lemma IntCastNatToString(n: nat)
    ensures IntCast(NatToString(n)) == n
  {
    var s := NatToString(n);
    assert IsDigit(s[0]);
    assert !IsSpace(s[0]) && s[0] != '-' && s[0] != '+';
    assert SkipSpace(s) == s;
    LeadingDigitsOfDigits(s);
    DigitsValueOfNatToString(n);
    assert IntCast(s) == DigitsValue(LeadingDigits(s));
  }

  /** Distinct numbers render as distinct strings. */
  lemma NatToStringInjective(a: nat, b: nat)
    requires NatToString(a) == NatToString(b)
    ensures a == b
  {
    DigitsValueOfNatToString(a);
    DigitsValueOfNatToString(b);
  }

  /** `ucfirst($s)`: upper-cases an ASCII lower-case first character, nothing else. */
  function Ucfirst(s: string): (r: string)
    ensures |r| == |s| && (|s| > 0 ==> r[1..] == s[1..])
    ensures |s| > 0 && 'a' <= s[0] <= 'z' ==> r[0] as int == s[0] as int - 32
    ensures |s| > 0 && !('a' <= s[0] <= 'z') ==> r == s
  {
    if |s| > 0 && 'a' <= s[0] <= 'z' then [(s[0] as int - 32) as char] + s[1..] else s
  }

  /** PHP truthiness of a string: only "" and "0" are falsy. */
  predicate Truthy(s: string)
  {
    s != "" && s != "0"
  }
}

=== FILE: url_provider.dfy ===
/**
 * The URL module provider: its permission check and the router for promotional
 * redirect URLs.
 */
module UrlProvider {
  import opened Wrappers
  import opened Access

  const ModuleDenied: string := "Access denied by media module: "

  /**
   * `checkAccess` of the URL module. The message names the media module, as the
   * module's own text does.
   */
  function CheckAccess(permission: string, names: seq<string>): (r: Access)
    ensures r == Granted <==> "*" in names || permission == "view" || permission in names
    ensures r.Denied? ==> r.message == ModuleDenied + permission
  {
    if "*" in names then Granted
    else if permission == "view" then Granted
    else if permission !in names then Denied(ModuleDenied + permission)
    else Granted
  }

  /** Holding a permission name only ever widens what is granted. */
  lemma MorePermissionsGrantMore(permission: string, names: seq<string>, extra: seq<string>)
    requires CheckAccess(permission, names) == Granted
    ensures CheckAccess(permission, names + extra) == Granted
  {
    if "*" in names {
      assert "*" in names + extra;
    } else if permission in names {
      assert permission in names + extra;
    }
  }

  /** A stored redirect URL. */
  datatype RedirectUrl = RedirectUrl(destination: string, redirectType: string)

  /** What the `redirecturl` router answers. */
  datatype Response = Redirect(to: string, status: nat) | Abort(status: nat)

  /**
   * The `redirecturl` router: a permanent (301) or temporary (302) redirect to the
   * stored destination, or a 404 when no redirect URL is stored under the id.
   */
  function RedirectResponse(stored: Option<RedirectUrl>): (r: Response)
    ensures stored.None? <==> r == Abort(404)
    ensures stored.Some? ==> r.Redirect? && r.to == stored.value.destination
    ensures r.Redirect? ==> (r.status == 301 <==> stored.value.redirectType == "perm")
    ensures r.Redirect? ==> r.status in {301, 302}
  {
    match stored
    case None => Abort(404)
    case Some(u) => Redirect(u.destination, if u.redirectType == "perm" then 301 else 302)
  }
}

=== FILE: user_group.dfy ===
/**
 * The user group presenter's permission listing: the group's access list turned
 * into display names, one entry per module.
 */
module UserGroup {
  import opened Wrappers
  import opened PhpStrings
  import opened PhpArray

  /** A value of the stored access list: a bare string, or a module's list of permissions. */
  datatype AccessValue = Scalar(s: string) | Listed(items: seq<string>)

  /** What `permissions()` returns: 'all', or the display names per module. */
  datatype Listing = All | ByModule(modules: Arr<seq<string>>)

  /** The permissions of one module in display form; a bare string lists nothing. */
  function DisplayNames(v: AccessValue): (r: seq<string>)
    ensures v.Listed? ==> |r| == |v.items| && forall i :: 0 <= i < |r| ==> r[i] == Ucfirst(v.items[i])
    ensures v.Scalar? ==> r == []
  {
    match v
    case Scalar(_) => []
    case Listed(items) => seq(|items|, i requires 0 <= i < |items| => Ucfirst(items[i]))
  }

  /** The listing's key for a module. */
  function ModuleKey(entry: (string, AccessValue)): string
  {
    Ucfirst(entry.0)
  }

  /** Whether no later entry of `access` shares entry `i`'s key. */
  predicate LastOfKey(access: Arr<AccessValue>, i: nat)
    requires i < |access|
  {
    forall j :: i < j < |access| ==> ModuleKey(access[j]) != ModuleKey(access[i])
  }

  /**
   * The loop over the access list: each module's key is (re)set to that module's
   * display names, so the last module with a given key decides its list.
   */
  function ByModules(access: Arr<AccessValue>): Arr<seq<string>>
    decreases |access|
  {
    if |access| == 0 then []
    else
      var n := |access| - 1;
      var before := ByModules(access[..n]);
      Put(before, ModuleKey(access[n]), DisplayNames(access[n].1))
  }

  /** The listing keys of the access list's modules, in order. */
  function ModuleKeys(access: Arr<AccessValue>): (ks: seq<string>)
    ensures |ks| == |access| && forall i :: 0 <= i < |access| ==> ks[i] == ModuleKey(access[i])
    decreases |access|
  {
    if |access| == 0 then [] else ModuleKeys(access[..|access| - 1]) + [ModuleKey(access[|access| - 1])]
  }

  /** Each module key appears once in the listing. */
  lemma {:induction false} ByModulesDistinct(access: Arr<AccessValue>)
    ensures DistinctKeys(ByModules(access))
    decreases |access|
  {
    if |access| > 0 {
      var n := |access| - 1;
      ByModulesDistinct(access[..n]);
      PutKeepsDistinct(ByModules(access[..n]), ModuleKey(access[n]), DisplayNames(access[n].1));
    }
  }

  /** The listing has a key for exactly the modules of the access list. */
  lemma {:induction false} ByModulesKeys(access: Arr<AccessValue>, k: string)
    ensures k in Keys(ByModules(access)) <==> k in ModuleKeys(access)
    decreases |access|
  {
    if |access| > 0 {
      var n := |access| - 1;
      var init := access[..n];
      var key := ModuleKey(access[n]);
      var before := ByModules(init);
      assert ByModules(access) == Put(before, key, DisplayNames(access[n].1));
      ByModulesKeys(init, k);
    }
  }

  /** Dropping the final entry keeps an entry that was the last of its key the last. */
  lemma LastOfKeyPrefix(access: Arr<AccessValue>, i: nat)
    requires i < |access| - 1 && LastOfKey(access, i)
    ensures LastOfKey(access[..|access| - 1], i)
  {
    var init := access[..|access| - 1];
    forall j | i < j < |init|
      ensures ModuleKey(init[j]) != ModuleKey(init[i])
    {
      assert init[j] == access[j] && init[i] == access[i];
    }
  }

  /** The final entry sets its own key. */
  lemma ByModulesNewest(access: Arr<AccessValue>)
    requires |access| > 0
    ensures Get(ByModules(access), ModuleKey(access[|access| - 1])) == Some(DisplayNames(access[|access| - 1].1))
  {
    var n := |access| - 1;
    assert ByModules(access) == Put(ByModules(access[..n]), ModuleKey(access[n]), DisplayNames(access[n].1));
  }

  /** The last module with a given key decides that key's list. */
  lemma {:induction false} ByModulesLast(access: Arr<AccessValue>, i: nat)
    requires i < |access| && LastOfKey(access, i)
    ensures Get(ByModules(access), ModuleKey(access[i])) == Some(DisplayNames(access[i].1))
    decreases |access|
  {
    var n := |access| - 1;
    if i == n {
      ByModulesNewest(access);
    } else {
      var init := access[..n];
      var key := ModuleKey(access[i]);
      var before := ByModules(init);
      assert init[i] == access[i];
      LastOfKeyPrefix(access, i);
      ByModulesLast(init, i);
      assert ModuleKey(access[n]) != key;
      var after := Put(before, ModuleKey(access[n]), DisplayNames(access[n].1));
      assert Get(after, key) == Get(before, key);
      assert ByModules(access) == after;
    }
  }

  /**
   * `permissions()`: 'all' when the entry under key 0 is the wildcard, otherwise the
   * display names per module.
   */
  function Permissions(access: Arr<AccessValue>): (r: Listing)
    ensures r == All <==> Get(access, "0") == Some(Scalar("*"))
    ensures r.ByModule? ==> DistinctKeys(r.modules)
    ensures r.ByModule? ==> forall k :: k in Keys(r.modules) <==> k in ModuleKeys(access)
    ensures r.ByModule? ==> forall i :: 0 <= i < |access| && LastOfKey(access, i) ==>
              Get(r.modules, ModuleKey(access[i])) == Some(DisplayNames(access[i].1))
  {
    if Get(access, "0") == Some(Scalar("*")) then All
    else
      assert forall k :: k in Keys(ByModules(access)) <==> k in ModuleKeys(access) by {
        forall k
          ensures k in Keys(ByModules(access)) <==> k in ModuleKeys(access)
        {
          ByModulesKeys(access, k);
        }
      }
      assert forall i :: 0 <= i < |access| && LastOfKey(access, i) ==>
               Get(ByModules(access), ModuleKey(access[i])) == Some(DisplayNames(access[i].1)) by {
        forall i | 0 <= i < |access| && LastOfKey(access, i)
          ensures Get(ByModules(access), ModuleKey(access[i])) == Some(DisplayNames(access[i].1))
        {
          ByModulesLast(access, i);
        }
      }
      ByModulesDistinct(access);
      ByModule(ByModules(access))
  }

  /** A module listed once keeps its permissions, in order, each with its first letter raised. */
  lemma SingleModuleListing(name: string, items: seq<string>)
    requires name != "0"
    ensures Permissions([(name, Listed(items))]) == ByModule([(Ucfirst(name), seq(|items|, i requires 0 <= i < |items| => Ucfirst(items[i])))])
  {
    var access := [(name, Listed(items))];
    assert access[..0] == [];
    assert ByModules(access) == Put([], Ucfirst(name), DisplayNames(Listed(items)));
    assert Get(access, "0") == None;
  }
}

=== FILE: wrappers.dfy ===
/** Failure-carrying datatypes shared by the whole model. */
module Wrappers {

  /** A value that may be missing: PHP's `null` / `false` return for "not found". */
  datatype Option<+T> = None | Some(value: T) {

    /** Returns the value, or `default` when there is none. */
    function GetOr(default: T): T
    {
      match this
      case Some(v) => v
      case None => default
    }
  }

  /** A computation that either succeeds with a value or raises an error. */
  datatype Result<+T, +E> = Ok(value: T) | Err(error: E)
}
